=== FILE: README.md ===
# Fuzzy select of ranobe, in Dafny

A model of the fuzzy-select widget of `ranobe`, a terminal reader for web
novels. The widget sits in `src/internal/select/select.rs` and
`src/internal/select/theme.rs`. A `FuzzySelect` holds a list of items (novel
titles) and draws a prompt line with a search query. Under it, the items the
fuzzy matcher accepts are drawn, best match first, one page at a time. The
user moves through them with vim-like keys in Normal mode, or types in
Editing mode. The user then commits a row (Enter) or cancels (Escape).

The model has these modules:

- `Options`: Rust's `Option`.
- `Chars`: character-sequence helpers:
  - newline counting;
  - `String::insert` and `String::remove`;
  - decimal rendering for the page indicator.
- `Doc`: styled output as markup. A piece is raw text or a piece wrapped
  in a named style. `Text` is what the reader sees.
- `Theme`: the `Theme` trait with its two implementations, `SimpleTheme`
  (the trait's default bodies) and `ColorfulTheme`. Each formatter returns
  the pieces it writes.
- `Renderer`: `TermThemeRenderer`. It has the `height` and `prompt_height`
  counters. The terminal is a log of operations. `OnScreen` counts the
  lines that log leaves, and `Balanced` says the counters match it.
- `Filter`: the per-frame filtering. It scores the items, keeps the
  accepted ones, sorts by score, cuts the visible page, and finds a
  committed title back in the item list.
- `Select`: the loop's state (query, cursor, selection, mode) and one
  dispatch of a key (`Step`), arm by arm.
- `Builder`: the `FuzzySelect` builder and the state the loop starts from.
- `Frame`: one pass of the loop in `_interact_on`:
  1. erase;
  2. draw the query line and the visible rows;
  3. dispatch the key;
  4. then either leave or erase the body for the next pass.

Inputs the model does not compute are parameters:

- the fuzzy matcher (`Matcher`: a score and matched positions);
- the pager's view of the frame (`PageView`, `Pager`);
- the key read;
- the terminal width.

## Model

| member | source | states |
|---|---|---|
| Chars.NewlineCount | src/internal/select/theme.rs:377 | at most one line break per character, and none exactly when the text has no `'\n'` |
| Chars.IsAsciiControl | src/internal/select/select.rs:301 | control characters are ASCII; printable ASCII is never one; line feed, tab and carriage return are |
| Chars.InsertAt | src/internal/select/select.rs:303 | the typed character lands at the cursor offset; what precedes is unchanged and what follows shifts by one |
| Chars.RemoveAt | src/internal/select/select.rs:296-297 | the character at the offset goes; what precedes is unchanged and what follows shifts back by one |
| Chars.RemoveAfterInsert | src/internal/select/select.rs:293-307 | removing at the offset where a character was inserted gives back the original query |
| Chars.InsertAfterRemove | src/internal/select/select.rs:293-307 | re-inserting the removed character at its offset restores the query |
| Chars.NewlineCountAppend | src/internal/select/theme.rs:377 | counting line breaks is additive over concatenated output |
| Chars.NewlineCountIsMultiplicity | src/internal/select/theme.rs:390 | the line-break count is the number of `'\n'` characters in the buffer |
| Chars.DecimalString | src/internal/select/theme.rs:409 | a page number is written with decimal digits only, with no leading zero |
| Chars.ParseDecimalString | src/internal/select/theme.rs:408-410 | reading the written digits back gives the number |
| Theme.SimpleFormatPromptText | src/internal/select/theme.rs:11-13 | the plain prompt shows `prompt:` |
| Theme.SimpleFormatErrorText | src/internal/select/theme.rs:17-19 | the plain error shows `error: ` and the message |
| Theme.SimpleFormatInputPromptText | src/internal/select/theme.rs:22-33 | the three cases of the plain input prompt: `[default]: `, `prompt [default]: `, `prompt: ` |
| Theme.SimpleFormatInputPromptSelectionText | src/internal/select/theme.rs:37-44 | the plain confirmation shows `prompt: selection` |
| Theme.HighlightChars | src/internal/select/theme.rs:58-66 | one piece per character, styled exactly when its index is among the matched positions, and the characters read back as the text |
| Theme.SimpleItemText | src/internal/select/theme.rs:47-73 | a plain item line shows `> ` or two spaces, then the title, with or without highlighting |
| Theme.SimpleItemHighlights | src/internal/select/theme.rs:56-69 | with highlighting, character i of the title is piece 1+i, bold exactly when i is a matched position |
| Theme.SimpleFuzzyPromptText | src/internal/select/theme.rs:76-96 | the plain query line is the prompt and a space (when there is a prompt), then the query with `|` inserted at the cursor, clamped to the end |
| Theme.SimplePromptRecoversQuery | src/internal/select/theme.rs:83-96 | the `|` sits right after the prompt at the cursor offset, and taking it out gives back exactly the query |
| Theme.DefaultColorfulTheme | src/internal/select/theme.rs:150-176 | the theme the program draws with has one-character item markers, active and inactive different, neither a line break, and inline selections on |
| Theme.ColorfulLeadText | src/internal/select/theme.rs:180-188 | the colorful lead is empty for an empty prompt and `prefix prompt ` otherwise |
| Theme.ColorfulFormatPromptText | src/internal/select/theme.rs:180-191 | the colorful prompt is the lead followed by the suffix |
| Theme.ColorfulFormatErrorText | src/internal/select/theme.rs:194-201 | the colorful error is the error prefix, a space and the message |
| Theme.ColorfulFormatInputPromptText | src/internal/select/theme.rs:204-228 | the lead, then `(default) › ` with a default or `› ` without one |
| Theme.ColorfulFormatInputPromptSelectionText | src/internal/select/theme.rs:231-252 | the success lead, the success suffix, a space and the selection |
| Theme.ColorfulItemText | src/internal/select/theme.rs:255-302 | a colorful item line shows the active or inactive prefix, a space and the title unchanged |
| Theme.ColorfulItemHighlights | src/internal/select/theme.rs:274-298 | with highlighting, character i of the title is piece 2+i: a matched one carries the highlight style and an unmatched one none, and on the active row both sit inside the active-item style |
| Theme.ColorfulFuzzyPromptShape | src/internal/select/theme.rs:305-342 | the colorful query line is lead, suffix, space and query; the cursor piece is the styled character under it, or a styled space at the end |
| Theme.ColorfulPromptShowsQuery | src/internal/select/theme.rs:321-341 | after the suffix and its space the line shows the query itself (cursor inside) or the query and one space (cursor at the end) |
| Theme.ItemLineKeepsText | src/internal/select/theme.rs:47-73 | in both themes an item line is the theme's marker, a space and the title unchanged, highlighted or not |
| Renderer.New | src/internal/select/theme.rs:355-363 | a new renderer has nothing on screen, its counters agree with that, and prompts reset the height |
| Renderer.AddLine | src/internal/select/theme.rs:365-367 | one more body row is counted and nothing is written |
| Renderer.WriteFormattedStr | src/internal/select/theme.rs:369-380 | the body grows by the line breaks in the text, the width returned is the visible text's length, and the counters stay in step with the logical lines on screen |
| Renderer.WriteFormattedLine | src/internal/select/theme.rs:382-392 | the body grows by the line breaks plus one, and the counters stay in step with the logical lines on screen |
| Renderer.WriteFormattedPrompt | src/internal/select/theme.rs:394-406 | when prompts reset the height, everything counted becomes prompt rows and the body is empty; the old prompt rows are then no longer counted |
| Renderer.PagingInfoRoundTrip | src/internal/select/theme.rs:408-410 | the page indicator has fixed delimiters and both numbers are read back from their places |
| Renderer.Error | src/internal/select/theme.rs:412-414 | the theme's error line is written and the counters stay in step with the logical lines on screen |
| Renderer.FuzzyPromptDocText | src/internal/select/theme.rs:416-433 | the query line shows the page indicator, when there is one, in front of the theme's prompt |
| Renderer.FuzzySelectPrompt | src/internal/select/theme.rs:416-433 | the query line is written as a prompt, leaving the body empty |
| Renderer.FuzzySelectPromptBalanced | src/internal/select/theme.rs:416-433 | with no prompt on screen, writing the query line keeps the counters in step with the screen |
| Renderer.InputPrompt | src/internal/select/theme.rs:435-437 | the input prompt is written without a line break; its width is returned |
| Renderer.InputPromptSelection | src/internal/select/theme.rs:439-443 | the confirmation line is written as a prompt |
| Renderer.InputPromptSelectionBalanced | src/internal/select/theme.rs:439-443 | with no prompt on screen, the confirmation keeps the counters in step |
| Renderer.FuzzySelectPromptItem | src/internal/select/theme.rs:445-463 | one item line is written; the prompt rows are untouched |
| Renderer.FuzzySelectPromptItemRows | src/internal/select/theme.rs:445-463 | an item line keeps the counters in step with the logical lines on screen, and is counted as exactly one body line when neither title nor marker holds a line break |
| Renderer.Clear | src/internal/select/theme.rs:465-471 | it erases body and prompt rows as counted and zeroes both; from a balanced renderer exactly the logical lines on screen go |
| Renderer.ScreenRows | src/internal/select/theme.rs:479-480 | the rows a line of some width occupies: enough to hold it, and no more than needed |
| Renderer.CountRowsToErase | src/internal/select/theme.rs:473-482 | the loop adds each item's overflow as written; with no item wider than the terminal it adds nothing |
| Renderer.OverflowRowsAsWritten | src/internal/select/theme.rs:478-480 | an item adds no row exactly when its size fits the columns; otherwise it adds the rows the size plus two columns wraps into, minus one |
| Renderer.ClearPreservePrompt | src/internal/select/theme.rs:473-487 | erases the body plus the overflow counted over the given sizes and keeps the prompt; balanced afterwards only when that overflow is zero |
| Renderer.ClearPreservePromptReach | src/internal/select/theme.rs:473-487 | from a balanced renderer, counted in logical lines, the erase as written leaves the prompt's line count minus its overflow count; for overflow counted on items that were not drawn, each such row takes a prompt line or a line above it |
| Renderer.BuiltInMarkersFitPrefix | src/internal/select/theme.rs:474-480 | under the plain theme and the default colorful theme a marker and its space take exactly the two columns the erase assumes, so the wrap count with that prefix is the real one for an item line |
| Renderer.OverflowGuardMissesMarker | src/internal/select/theme.rs:475-481 | the guard `size > cols` and the real wrap count differ exactly when the title fits but title plus marker does not |
| Renderer.OverflowGuardExample | src/internal/select/theme.rs:478-480 | a 79-character title on 80 columns is counted as one row but takes two |
| Renderer.OverflowCountsWrappedRows | src/internal/select/theme.rs:475-481 | one row per drawn line plus its overflow rows, measured on the line's full width, is exactly the rows those lines occupy |
| Renderer.ClearBody | src/internal/select/theme.rs:473-487 | the intended erase: body plus the real overflow of the drawn lines, by their measured widths; with no overflow exactly the prompt stays |
| Renderer.NoOverflowAsWritten | src/internal/select/theme.rs:475-481 | when no size exceeds the columns, the erase as written counts no extra row |
| Renderer.ErasesAgree | src/internal/select/theme.rs:473-487 | when neither count adds a row, the erase as written and the intended erase leave the same renderer |
| Select.Move | src/internal/select/select.rs:158-177 | the new selection is a valid row; up wraps from the first row to the last, down from the last to the first, and no selection goes to the last or first row; from any selection s, even one past the end of a shrunk list, up gives (s + n - 1) mod n and down (s + 1) mod n |
| Select.MoveUpTimes | src/internal/select/select.rs:158-168 | k up-moves from row s land on row (s - k) mod n |
| Select.MoveDownTimes | src/internal/select/select.rs:170-177 | k down-moves from row s land on row (s + k) mod n |
| Select.MoveCycle | src/internal/select/select.rs:158-177 | n moves in one direction return to the starting row |
| Select.MoveInverse | src/internal/select/select.rs:158-177 | an up-move and a down-move undo each other |
| Select.InsertChar | src/internal/select/select.rs:300-307 | typing inserts at the cursor, advances it, selects the best match, keeps the mode |
| Select.DeleteBack | src/internal/select/select.rs:293-299 | Backspace removes the character before the cursor and steps back, keeping the selection |
| Select.DeleteBackUndoesInsert | src/internal/select/select.rs:293-307 | typing then Backspace restores query and cursor |
| Select.Step | src/internal/select/select.rs:219-310 | the loop ends only from Normal mode, on Escape or a valid commit; a commit returns an item with the committed title, or nothing when no item has it; a commit past the list's end panics; only editing keys change the query; only `i`, Escape and Enter change the mode; navigation keys on a non-empty list select a valid row and change nothing else |
| Select.PagingAnchor | src/internal/select/select.rs:312-315 | the pager is updated with the selection, or row 0 without one |
| Select.StepUp | src/internal/select/select.rs:235-245 | ArrowUp, BackTab and Normal-mode `k` move up and change nothing else |
| Select.StepDown | src/internal/select/select.rs:246-256 | ArrowDown, Tab and Normal-mode `j` move down and change nothing else |
| Select.StepTypes | src/internal/select/select.rs:300-307 | in Editing mode every printable character is typed, command letters included |
| Select.StepBackspace | src/internal/select/select.rs:293-299 | Backspace edits only in Editing mode with the cursor past the start, and otherwise changes nothing |
| Select.StepModes | src/internal/select/select.rs:220-234 | `i` enters Editing; Escape leaves Editing or cancels from Normal; Enter on a selection in Editing returns to Normal |
| Select.StepPages | src/internal/select/select.rs:257-268 | in either mode, the page keys select what the pager returns while paging is active, and change nothing otherwise |
| Select.CommitFindsRow | src/internal/select/select.rs:270-289 | committing a row of a list drawn from the items returns the first item with that title |
| Filter.ScoreAll | src/internal/select/select.rs:191-197 | exactly the accepted items, each with its own score and as many times as it occurs |
| Filter.Insert | src/internal/select/select.rs:199-200 | inserting into a list sorted by score keeps it sorted and adds exactly the new entry |
| Filter.SortByScore | src/internal/select/select.rs:199-200 | best score first, a permutation of the input |
| Filter.FilteredList | src/internal/select/select.rs:191-200 | the frame's list is one of the orders the unstable sort may give |
| Filter.FilteredMembers | src/internal/select/select.rs:191-200 | whatever the tie order, a filtered list holds exactly the accepted items with their scores |
| Filter.VisibleWindow | src/internal/select/select.rs:202-207 | the rows of a page keep their list indices, are the page's existing indices in order, and are at most a page long |
| Filter.FirstIndexOf | src/internal/select/select.rs:284-286 | the first item whose title equals the committed one, or nothing exactly when no title does |
| Builder.New | src/internal/select/select.rs:37-39 | the plain theme, no items, no prompt, no page limit; reporting, clearing and highlighting on; the loop starts in Normal mode with an empty query and nothing selected |
| Builder.SetClear | src/internal/select/select.rs:46-49 | `clear` takes the value and nothing else changes |
| Builder.SetDefault | src/internal/select/select.rs:52-55 | the default row becomes the value and nothing else changes |
| Builder.WithInitialText | src/internal/select/select.rs:72-75 | the initial query becomes the text and nothing else changes |
| Builder.WithPrompt | src/internal/select/select.rs:81-84 | the prompt becomes the text and nothing else changes |
| Builder.SetReport | src/internal/select/select.rs:89-92 | `report` takes the value and nothing else changes |
| Builder.SetHighlightMatches | src/internal/select/select.rs:97-100 | `highlight_matches` takes the value and nothing else changes |
| Builder.AddItem | src/internal/select/select.rs:58-61 | the item is appended and nothing else changes |
| Builder.AddItems | src/internal/select/select.rs:64-69 | the items are appended in order and nothing else changes |
| Builder.MaxLength | src/internal/select/select.rs:105-112 | two rows are added for the pager's indicator, leaving the requested number for items |
| Builder.InitialState | src/internal/select/select.rs:139-145 | the loop starts with the initial text as query, the cursor at its end, the default selection |
| Builder.FreshStart | src/internal/select/select.rs:323-337 | a fresh selector starts in Normal mode with an empty query and no selection, reporting, clearing and highlighting |
| Frame.TitleSizes | src/internal/select/select.rs:147-151 | one size per item, its title's length |
| Frame.RowLinesAt | src/internal/select/select.rs:202-215 | the k-th line drawn is the k-th visible row, active exactly when its index is the selection |
| Frame.DrawRows | src/internal/select/select.rs:202-215 | the visible rows are drawn in order, one item line each, leaving the prompt rows alone |
| Frame.DrawRowsBalanced | src/internal/select/select.rs:202-215 | drawing the rows keeps the counters in step with the screen |
| Frame.DrawRowsLast | src/internal/select/select.rs:202-215 | drawing rows is drawing all but the last, then the last one's item line |
| Frame.DrawRowsHeight | src/internal/select/select.rs:202-215 | rows without line breaks add exactly one body row each |
| Frame.DrawHeight | src/internal/select/select.rs:179-215 | when no title or marker breaks the line, the body of a frame counts one row per visible item |
| Frame.Page | src/internal/select/select.rs:191-207 | the frame's filtered list, admissible for the unstable sort, and the rows of its current page, each with its list index |
| Frame.DrawLog | src/internal/select/select.rs:180-215 | a frame's operations are the erase of the counted lines, the query line, then one item line per row in order |
| Frame.Draw | src/internal/select/select.rs:179-215 | a frame erases the counted lines, writes the query line, then the item lines of the current page of the filtered list it returns, which is one of the admissible ones; the theme is kept |
| Frame.Begin | src/internal/select/select.rs:156 | the cursor is hidden before the loop; the lines on screen and the counters do not change |
| Frame.BeginBalanced | src/internal/select/select.rs:156 | hiding the cursor keeps the counters in step with the screen |
| Frame.DrawStartsWithErase | src/internal/select/select.rs:180 | a frame starts by erasing body and prompt rows as counted |
| Frame.DrawBalanced | src/internal/select/select.rs:179-215 | the erase removes exactly the lines on screen, and after drawing the counters again match the screen |
| Frame.Leave | src/internal/select/select.rs:270-289 | leaving erases the counted lines when `clear` is set, then writes the confirmation line when a row was committed and `report` is set, then shows the cursor; with neither, it only shows the cursor |
| Frame.Iterate | src/internal/select/select.rs:179-318 | a pass ends only from Normal mode on Escape or Enter and then shows the cursor; a pass that goes on keeps a valid state, an empty body and the theme, and anchors the pager at the selection |
| Frame.IterateKeepsPrompt | src/internal/select/select.rs:312-317 | when every item's line, with either of the theme's markers and a space in front, fits in the terminal's columns, a pass that goes on leaves exactly the query line on screen, and the counters agree |
| Frame.AdmissibleRowFromItems | src/internal/select/select.rs:191-207 | whatever order the unstable sort gives equal scores, every row of every page of the filtered list holds one of the items |
| Frame.AdmissibleWidthsFit | src/internal/select/select.rs:199-215 | whatever order the unstable sort gives equal scores, when every item's line fits the terminal so does every line drawn for any page of the filtered list |
| Frame.DrawnWidthsFit | src/internal/select/select.rs:202-215 | when every item's line fits the terminal, so does every line a frame draws, on any page |
| Frame.AsWrittenEraseAgrees | src/internal/select/select.rs:317 | when every item's line fits the terminal, `clear_preserve_prompt` over the sizes of all titles adds no row, nor does the intended count, and the two erases leave the same renderer |
| Frame.IterateAsWrittenKeepsPrompt | src/internal/select/select.rs:312-317 | when every item's line fits the terminal, a pass that goes on ends exactly as the program's erase over `size_vec` would leave it, with only the query line on screen |
| Frame.LineWidthAt | src/internal/select/select.rs:208-214 | the k-th drawn line is as wide as the theme's marker for that row, a space and the title |
| Frame.EraseMatchesDrawnRows | src/internal/select/select.rs:317 | when no title or marker breaks the line, the erase at the end of a pass removes exactly the terminal rows the visible item lines occupy, each measured with the marker of the theme in use, wrapped rows included |
| Frame.TwoTitlesPage | src/internal/select/select.rs:191-207 | with titles `a` and `bbbbbbbb`, the matcher ranking `a` first and one row per page, the first page shows only `a` |
| Frame.OneLineBodyOverErased | src/internal/select/theme.rs:473-487 | a balanced one-line body erased as written with title sizes 1 and 8 on 4 columns loses three lines, two of them above the body |
| Frame.HiddenTitleOverErases | src/internal/select/select.rs:147-151 | a fresh frame of that example on 4 columns draws one balanced body line `  a`, 3 columns wide and one terminal row; the erase as written still removes three lines, two of them above the body |

## Left out

- Terminal I/O is a log of operations: writes, erases and cursor hiding and showing (`Frame.Begin` hides the cursor before the loop). `flush` and key reading are not modelled: the key is a parameter, and so is the terminal width.
- The `io::Result` error paths (`?`) are not modelled. Every write succeeds.
- `src/internal/select/paging.rs` is not part of this model. The pager's page, capacity, indicator, active flag and page-turn results are parameters (`PageView`, `Pager`). `Paging::update` and `render_prompt` are not modelled.
- The `SkimMatcherV2` fuzzy matcher is an external crate. Its score and matched positions are parameters (`Matcher`).
- Builder.MaxLength: stores the unbounded `val + 2`. The source adds in `usize` (select.rs line 110), which overflows for `val` above `usize::MAX - 2`: a panic in debug builds, a wrap-around in release builds. That overflow is not modelled.
- Select.Move: computes on unbounded integers. The source casts the selection and the list length to `i64` for up-moves and to `u64` for down-moves (select.rs lines 163-164 and 174); the two agree for selections and lengths below 2^63, and larger values are not modelled.
- Select.InsertChar: types every non-control character and advances the cursor by one character. The source inserts at a byte offset and adds 1 (select.rs lines 303-304), so after a multi-byte character the cursor sits inside it, and the next frame panics when the theme slices the query at the cursor (theme.rs lines 88 and 322). That panic is not modelled.
- Strings are sequences of characters. Rust's byte offsets (`len()`, `insert`, `remove`, slicing) and `measure_text_width` are character counts here, which is exact for ASCII titles and queries. A non-ASCII keystroke is where the two part: see the Select.InsertChar line above.
- WriteFormattedStr: the width returned is the number of visible characters; display widths of wide or zero-width characters are not modelled.
- Styles are markup roles. The colours and the escape sequences they stand for are not modelled, since they hold no line break and do not change the visible text.
- `ColorfulTheme` fields no formatter here reads are left out: `defaults_style`, `inactive_item_style`, and the checked, unchecked, picked and unpicked prefixes.
- Only the two built-in themes are modelled. A user-supplied `Theme` implementation is not.
- `sort_unstable_by` promises no order among equal scores. `IsFilteredList` admits every sorted permutation, and `FilteredList` is one of them. The model promises no tie order.
- The `f64` ceiling in the erase count is integer ceiling division (`CeilDiv`). The two agree for sizes below 2^53.
- Renderer.OnScreen counts logical lines: a written line counts once however many terminal rows it wraps into, while `ClearLastLines` takes terminal rows. `Balanced` and every row above that keeps the counters in step with the screen are exact in terminal rows only while no drawn line wraps.
- ClearPreservePromptReach: its count is in logical lines. When a drawn item line wraps, its extra rows are on the terminal but not in the count, so the lemma says nothing about the terminal rows left in that case.
- A zero-column terminal is not modelled: the source then divides by zero in floating point and casts. `ScreenRows` and the erase functions require at least one column.
- Frame.Iterate is one pass. The unbounded loop itself is not a Dafny function, because it runs until a key ends it.
- Frame.Iterate erases with the corrected count (`ClearBody` over the visible rows) instead of `clear_preserve_prompt` over `size_vec`. The count as written is `Renderer.ClearPreservePrompt`; see Findings. When every item line fits the terminal, the two erases coincide (`Frame.IterateAsWrittenKeepsPrompt`); when one does not, the pass as written is stated only for the two-title example.
- `interact` and `interact_on` only forward to `_interact_on`, and `Default` only calls `new`. They are not modelled separately.

## Findings

| source | as written | input that shows it | evidently intended | confidence | as-written member | corrected member |
|---|---|---|---|---|---|---|
| src/internal/select/theme.rs:478-480 | an item counts extra rows only when `size > cols`, ignoring the two-column marker drawn in front of it | a 79-character title on an 80-column terminal: the line is 81 columns and wraps to two rows, but no extra row is counted | count `ceil(w / cols) - 1` extra rows for every drawn line of width `w`, marker and space included | medium, not executed | Renderer.OverflowGuardExample | Renderer.OverflowCountsWrappedRows |
| src/internal/select/select.rs:317 | the erase adds the overflow of every item in `size_vec`, drawn on this page or not | items `a` and `bbbbbbbb`, 4 columns, one item per page: one row is drawn and three are erased | add the overflow of the rows drawn on the current page only | medium, not executed | Frame.HiddenTitleOverErases | Frame.EraseMatchesDrawnRows |

=== FILE: builder.dfy ===
/**
 * The `FuzzySelect` builder of src/internal/select/select.rs: the
 * configuration fixed before the interaction, and the state the loop
 * starts from.
 */
module Builder {
  import opened Options
  import opened Filter
  import opened Theme
  import opened Select

  datatype FuzzySelect = FuzzySelect(
    default: Option<nat>,
    items: seq<Item>,
    prompt: string,
    report: bool,
    clear: bool,
    highlightMatches: bool,
    maxLength: Option<nat>,
    theme: Theme,
    inputMode: Mode,
    initialText: string)

  /** `FuzzySelect::with_theme`: no items, no prompt, report, clear and highlight on, Normal mode. */
  function WithTheme(theme: Theme): FuzzySelect
  {
    FuzzySelect(
      default := None,
      items := [],
      prompt := "",
      report := true,
      clear := true,
      highlightMatches := true,
      maxLength := None,
      theme := theme,
      inputMode := Normal,
      initialText := "")
  }

  /** `FuzzySelect::new`: the plain theme and the defaults of `with_theme`. */
  function New(): (r: FuzzySelect)
    ensures r.theme == SimpleTheme && r.items == [] && r.prompt == [] && r.maxLength.None?
    ensures r.report && r.clear && r.highlightMatches
    ensures InitialState(r) == State("", 0, None, Normal)
  {
    WithTheme(SimpleTheme)
  }

  /** `clear`: whether leaving erases the frame; nothing else changes. */
  function SetClear(b: FuzzySelect, val: bool): (r: FuzzySelect)
    ensures r.clear == val && r.(clear := b.clear) == b
  {
    b.(clear := val)
  }

  /** `default`: the row selected at the start; nothing else changes. */
  function SetDefault(b: FuzzySelect, val: nat): (r: FuzzySelect)
    ensures r.default == Some(val) && r.(default := b.default) == b
  {
    b.(default := Some(val))
  }

  /** `with_initial_text`: the query the search starts with; nothing else changes. */
  function WithInitialText(b: FuzzySelect, text: string): (r: FuzzySelect)
    ensures r.initialText == text && r.(initialText := b.initialText) == b
  {
    b.(initialText := text)
  }

  /** `with_prompt`: the text before the query; nothing else changes. */
  function WithPrompt(b: FuzzySelect, prompt: string): (r: FuzzySelect)
    ensures r.prompt == prompt && r.(prompt := b.prompt) == b
  {
    b.(prompt := prompt)
  }

  /** `report`: whether a commit writes the confirmation line; nothing else changes. */
  function SetReport(b: FuzzySelect, val: bool): (r: FuzzySelect)
    ensures r.report == val && r.(report := b.report) == b
  {
    b.(report := val)
  }

  /** `highlight_matches`: whether matched characters are styled; nothing else changes. */
  function SetHighlightMatches(b: FuzzySelect, val: bool): (r: FuzzySelect)
    ensures r.highlightMatches == val && r.(highlightMatches := b.highlightMatches) == b
  {
    b.(highlightMatches := val)
  }

  /** `item`: appends one item after the existing ones; nothing else changes. */
  function AddItem(b: FuzzySelect, item: Item): (r: FuzzySelect)
    ensures |r.items| == |b.items| + 1 && r.items[|b.items|] == item && r.items[..|b.items|] == b.items
    ensures r.(items := b.items) == b
  {
    b.(items := b.items + [item])
  }

  /** `items`: pushes each given item in order after the existing ones; nothing else changes. */
  method AddItems(b: FuzzySelect, items: seq<Item>) returns (r: FuzzySelect)
    ensures r.items == b.items + items
    ensures r.(items := b.items) == b
  {
    r := b;
    var i := 0;
    while i < |items|
      invariant 0 <= i <= |items|
      invariant r.items == b.items + items[..i]
      invariant r.(items := b.items) == b
    {
      r := AddItem(r, items[i]);
      assert items[..i + 1] == items[..i] + [items[i]];
      i := i + 1;
    }
    assert items[..|items|] == items;
  }

  /**
   * `max_length`: the pager reserves two rows for its indicator, so the
   * builder stores two more than asked and `val` rows of items remain.
   */
  function MaxLength(b: FuzzySelect, val: nat): (r: FuzzySelect)
    ensures r.maxLength.Some? && r.maxLength.value - 2 == val
    ensures r.(maxLength := b.maxLength) == b
  {
    b.(maxLength := Some(val + 2))
  }

  /**
   * The state `_interact_on` starts from: the initial text as the query
   * with the cursor at its end, the default selection, the stored mode.
   */
  function InitialState(b: FuzzySelect): (s: State)
    ensures Valid(s)
    ensures s.position == |s.query| && s.query == b.initialText
    ensures s.sel == b.default && s.mode == b.inputMode
  {
    State(b.initialText, |b.initialText|, b.default, b.inputMode)
  }

  /** A fresh selector starts in Normal mode with an empty query, no selection and the cursor at 0. */
  lemma FreshStart(theme: Theme)
    ensures InitialState(WithTheme(theme)) == State("", 0, None, Normal)
    ensures WithTheme(theme).report && WithTheme(theme).clear && WithTheme(theme).highlightMatches
  {
  }
}

=== FILE: chars.dfy ===
/**
 * Character-sequence helpers shared by the theme, the renderer and the
 * selection state machine. Strings are `seq<char>`; a position is a
 * character offset.
 */
module Chars {

  /** Number of line breaks in `s`, the count the renderer adds to its height. */
  function NewlineCount(s: string): (n: nat)
    ensures n <= |s|
    ensures n == 0 <==> !('\n' in s)
  {
    if s == [] then 0
    else
      assert s == s[..|s| - 1] + [s[|s| - 1]];
      NewlineCount(s[..|s| - 1]) + (if s[|s| - 1] == '\n' then 1 else 0)
  }

  /** Counting newlines is additive over concatenation. */
  lemma {:induction false} NewlineCountAppend(a: string, b: string)
    ensures NewlineCount(a + b) == NewlineCount(a) + NewlineCount(b)
    decreases |b|
  {
    if b != [] {
      var b' := b[..|b| - 1];
      assert (a + b)[..|a + b| - 1] == a + b';
      NewlineCountAppend(a, b');
    } else {
      assert a + b == a;
    }
  }

  /** The newline count is the multiplicity of `'\n'` in the string. */
  lemma {:induction false} NewlineCountIsMultiplicity(s: string)
    ensures NewlineCount(s) == multiset(s)['\n']
    decreases |s|
  {
    if s != [] {
      var s' := s[..|s| - 1];
      assert s == s' + [s[|s| - 1]];
      NewlineCountIsMultiplicity(s');
      assert multiset(s) == multiset(s') + multiset{s[|s| - 1]};
    }
  }

  /**
   * Rust's `char::is_ascii_control`: U+0000 to U+001F and U+007F. Every
   * other character, printable ASCII and non-ASCII alike, is typed.
   */
  function IsAsciiControl(c: char): (control: bool)
    ensures control ==> (c as int) < 0x80
    ensures ' ' <= c <= '~' ==> !control
    ensures c == '\n' || c == '\t' || c == '\r' ==> control
  {
    (c as int) < 0x20 || (c as int) == 0x7F
  }

  /** `s` with `c` inserted so that it lands at offset `i` (`String::insert`). */
  function InsertAt(s: string, i: nat, c: char): (r: string)
    requires i <= |s|
    ensures |r| == |s| + 1
    ensures r[i] == c
    ensures forall k :: 0 <= k < i ==> r[k] == s[k]
    ensures forall k :: i <= k < |s| ==> r[k + 1] == s[k]
  {
    s[..i] + [c] + s[i..]
  }

  /** `s` with the character at offset `i` taken out (`String::remove`). */
  function RemoveAt(s: string, i: nat): (r: string)
    requires i < |s|
    ensures |r| == |s| - 1
    ensures forall k :: 0 <= k < i ==> r[k] == s[k]
    ensures forall k :: i <= k < |r| ==> r[k] == s[k + 1]
  {
    s[..i] + s[i + 1..]
  }

  /** Removing what was just inserted gives back the original string. */
  lemma RemoveAfterInsert(s: string, i: nat, c: char)
    requires i <= |s|
    ensures RemoveAt(InsertAt(s, i, c), i) == s
  {
    var r := RemoveAt(InsertAt(s, i, c), i);
    assert forall k :: 0 <= k < |s| ==> r[k] == s[k];
  }

  /** Putting back the removed character restores the original string. */
  lemma InsertAfterRemove(s: string, i: nat)
    requires i < |s|
    ensures InsertAt(RemoveAt(s, i), i, s[i]) == s
  {
    var r := InsertAt(RemoveAt(s, i), i, s[i]);
    assert forall k :: 0 <= k < |s| ==> r[k] == s[k];
  }

  predicate IsDigit(c: char)
  {
    '0' <= c <= '9'
  }

  /** The decimal digit character for `d`. */
  function DigitChar(d: nat): (c: char)
    requires d < 10
    ensures IsDigit(c)
    ensures (c as int) - ('0' as int) == d
  {
    (('0' as int) + d) as char
  }

  /** Decimal rendering of a natural number, as Rust's `{}` formats a `usize`. */
  function DecimalString(n: nat): (s: string)
    ensures |s| >= 1
    ensures forall k :: 0 <= k < |s| ==> IsDigit(s[k])
    ensures |s| > 1 ==> s[0] != '0'
    decreases n
  {
    if n < 10 then [DigitChar(n)]
    else DecimalString(n / 10) + [DigitChar(n % 10)]
  }

  /** Reads a string of decimal digits back as a number. */
  function ParseDecimal(s: string): nat
    requires forall k :: 0 <= k < |s| ==> IsDigit(s[k])
  {
    if s == [] then 0
    else
      assert IsDigit(s[|s| - 1]);
      ParseDecimal(s[..|s| - 1]) * 10 + ((s[|s| - 1] as int) - ('0' as int))
  }

  /** Decimal rendering round-trips through parsing. */
  lemma {:induction false} ParseDecimalString(n: nat)
    ensures ParseDecimal(DecimalString(n)) == n
    decreases n
  {
    var s := DecimalString(n);
    if n >= 10 {
      ParseDecimalString(n / 10);
      assert s[..|s| - 1] == DecimalString(n / 10);
    }
  }
}

=== FILE: doc.dfy ===
/**
 * Styled output. The `console` crate wraps text in ANSI escape sequences;
 * the model keeps the styling as markup instead: a piece is raw text or a
 * piece wrapped in a named style. `Flatten` is the text a reader sees with
 * the styles taken away (identity styling). Escape sequences hold no
 * newline, so line counting on the flattened text agrees with counting on
 * the bytes the terminal receives.
 */
module Doc {

  /** The styles the themes apply, named after the `ColorfulTheme` fields they come from. */
  datatype Role =
    | Bold
    | PromptStyle
    | PromptPrefix
    | PromptSuffix
    | SuccessPrefix
    | SuccessSuffix
    | ErrorPrefix
    | ErrorStyle
    | HintStyle
    | ValuesStyle
    | ActiveItemStyle
    | ActiveItemPrefix
    | InactiveItemPrefix
    | FuzzyCursorStyle
    | FuzzyMatchHighlightStyle

  datatype Piece = Raw(text: string) | Styled(role: Role, inner: Piece)

  function Flatten(p: Piece): string
  {
    match p
    case Raw(t) => t
    case Styled(_, inner) => Flatten(inner)
  }

  /** The visible text of a sequence of pieces, in order. */
  function Text(doc: seq<Piece>): string
  {
    if doc == [] then [] else Text(doc[..|doc| - 1]) + Flatten(doc[|doc| - 1])
  }

  /** `p` wrapped in `roles`, the first role outermost. */
  function Wrap(roles: seq<Role>, p: Piece): (r: Piece)
    ensures Flatten(r) == Flatten(p)
  {
    if roles == [] then p else Styled(roles[0], Wrap(roles[1..], p))
  }

  /** Wrapping in no role leaves the piece as it is. */
  lemma WrapNone(p: Piece)
    ensures Wrap([], p) == p
  {
  }

  /** Wrapping in one role is that style around the piece. */
  lemma WrapOne(role: Role, p: Piece)
    ensures Wrap([role], p) == Styled(role, p)
  {
    assert [role][1..] == [];
  }

  /** Wrapping in two roles nests the first outside the second. */
  lemma WrapTwo(outer: Role, inner: Role, p: Piece)
    ensures Wrap([outer, inner], p) == Styled(outer, Styled(inner, p))
  {
    assert [outer, inner][1..] == [inner];
    WrapOne(inner, p);
  }

  lemma {:induction false} TextAppend(a: seq<Piece>, b: seq<Piece>)
    ensures Text(a + b) == Text(a) + Text(b)
    decreases |b|
  {
    if b == [] {
      assert a + b == a;
    } else {
      var b' := b[..|b| - 1];
      assert (a + b)[..|a + b| - 1] == a + b';
      TextAppend(a, b');
    }
  }

  lemma TextSingle(p: Piece)
    ensures Text([p]) == Flatten(p)
  {
    assert [p][..0] == [];
  }

  lemma TextOf2(a: Piece, b: Piece)
    ensures Text([a, b]) == Flatten(a) + Flatten(b)
  {
    assert [a, b][..1] == [a];
    TextSingle(a);
  }

  lemma TextOf3(a: Piece, b: Piece, c: Piece)
    ensures Text([a, b, c]) == Flatten(a) + Flatten(b) + Flatten(c)
  {
    assert [a, b, c][..2] == [a, b];
    TextOf2(a, b);
  }

  lemma TextOf4(a: Piece, b: Piece, c: Piece, d: Piece)
    ensures Text([a, b, c, d]) == Flatten(a) + Flatten(b) + Flatten(c) + Flatten(d)
  {
    assert [a, b, c, d][..3] == [a, b, c];
    TextOf3(a, b, c);
  }

  lemma TextOf5(a: Piece, b: Piece, c: Piece, d: Piece, e: Piece)
    ensures Text([a, b, c, d, e]) == Flatten(a) + Flatten(b) + Flatten(c) + Flatten(d) + Flatten(e)
  {
    assert [a, b, c, d, e][..4] == [a, b, c, d];
    TextOf4(a, b, c, d);
  }
}

=== FILE: filter.dfy ===
/**
 * The per-frame filtering of `_interact_on` (src/internal/select/select.rs):
 * score every item against the query, keep those with a score, order them
 * from best to worst; then the visible page of that list, and the lookup
 * of a committed row back in the item list. The fuzzy scorer is an
 * external crate, so it is a parameter.
 */
module Filter {
  import opened Options

  /** A `Ranobe`: the title is shown and matched, the URL is only carried along. */
  datatype Item = Item(title: string, url: string)

  /** A matching item with its score: one `(item, score)` pair of the filtered list. */
  datatype Scored = Scored(item: Item, score: int)

  /** `fuzzy_match(text, query)`: a score when the query matches the text, nothing otherwise. */
  type Scorer = (string, string) -> Option<int>

  /**
   * The `map` and `filter_map` over the items: every item the scorer
   * accepts, once per occurrence, with its score, in item order.
   */
  function ScoreAll(items: seq<Item>, query: string, score: Scorer): (r: seq<Scored>)
    ensures forall x :: x in r <==> x.item in items && score(x.item.title, query) == Some(x.score)
    ensures forall x :: multiset(r)[x] == (if score(x.item.title, query) == Some(x.score) then multiset(items)[x.item] else 0)
    ensures |r| <= |items|
  {
    if items == [] then []
    else
      var head := match score(items[0].title, query)
        case Some(s) => [Scored(items[0], s)]
        case None => [];
      var rest := ScoreAll(items[1..], query, score);
      assert items == [items[0]] + items[1..];
      assert multiset(items) == multiset{items[0]} + multiset(items[1..]);
      assert forall x :: x in head + rest <==> x in head || x in rest;
      head + rest
  }

  /** Non-increasing scores: the best match comes first. */
  predicate SortedByScore(s: seq<Scored>)
  {
    forall i, j :: 0 <= i < j < |s| ==> s[i].score >= s[j].score
  }

  /** Places `x` in front of the first entry it does not score below. */
  function Insert(x: Scored, s: seq<Scored>): (r: seq<Scored>)
    requires SortedByScore(s)
    ensures SortedByScore(r)
    ensures multiset(r) == multiset(s) + multiset{x}
    ensures |r| == |s| + 1
    ensures r[0] == x || (s != [] && r[0] == s[0])
  {
    if s == [] || s[0].score <= x.score then
      [x] + s
    else
      var rest := Insert(x, s[1..]);
      ConsSorted(s[0], rest);
      assert s == [s[0]] + s[1..];
      [s[0]] + rest
  }

  /** An entry scoring at least the head of a sorted list can go in front of it. */
  lemma ConsSorted(h: Scored, s: seq<Scored>)
    requires SortedByScore(s) && (s != [] ==> h.score >= s[0].score)
    ensures SortedByScore([h] + s)
  {
    var r := [h] + s;
    forall i, j | 0 <= i < j < |r|
      ensures r[i].score >= r[j].score
    {
      if i == 0 {
        assert r[j] == s[j - 1];
      } else {
        assert r[i] == s[i - 1] && r[j] == s[j - 1];
      }
    }
  }

  /**
   * The unstable sort by descending score. The source promises no order
   * among equal scores; this insertion sort keeps item order, one
   * of the orders the source may produce.
   */
  function SortByScore(s: seq<Scored>): (r: seq<Scored>)
    ensures SortedByScore(r)
    ensures multiset(r) == multiset(s)
  {
    if s == [] then []
    else
      assert s == [s[0]] + s[1..];
      Insert(s[0], SortByScore(s[1..]))
  }

  /** Any list the source's unstable sort may return: the scored items, reordered, best first. */
  ghost predicate IsFilteredList(items: seq<Item>, query: string, score: Scorer, out: seq<Scored>)
  {
    SortedByScore(out) && multiset(out) == multiset(ScoreAll(items, query, score))
  }

  /**
   * The filtered list of one frame: exactly the items the scorer accepts,
   * each with its own score, ordered by non-increasing score.
   */
  function FilteredList(items: seq<Item>, query: string, score: Scorer): (r: seq<Scored>)
    ensures IsFilteredList(items, query, score, r)
  {
    SortByScore(ScoreAll(items, query, score))
  }

  /**
   * Whatever order the sort picks for ties, a filtered list holds exactly
   * the accepted items with their own scores.
   */
  lemma FilteredMembers(items: seq<Item>, query: string, score: Scorer, out: seq<Scored>)
    requires IsFilteredList(items, query, score, out)
    ensures forall x :: x in out <==> x.item in items && score(x.item.title, query) == Some(x.score)
  {
    SameMembers(out, ScoreAll(items, query, score));
  }

  lemma SameMembers<T>(a: seq<T>, b: seq<T>)
    requires multiset(a) == multiset(b)
    ensures forall x :: x in a <==> x in b
  {
    forall x
      ensures x in a <==> x in b
    {
      assert x in a <==> x in multiset(a);
      assert x in b <==> x in multiset(b);
    }
  }

  /** The items of a filtered list, in its order. */
  function ItemsOf(s: seq<Scored>): (r: seq<Item>)
    ensures |r| == |s|
    ensures forall i :: 0 <= i < |s| ==> r[i] == s[i].item
  {
    seq(|s|, i requires 0 <= i < |s| => s[i].item)
  }

  /** Each entry paired with its index. */
  function Enumerate<T>(s: seq<T>): (r: seq<(nat, T)>)
    ensures |r| == |s|
    ensures forall i :: 0 <= i < |s| ==> r[i] == (i, s[i])
  {
    seq(|s|, i requires 0 <= i < |s| => (i, s[i]))
  }

  /**
   * The rows drawn for page `page` of capacity `cap`: the entries paired
   * with their indices, the first `page * cap` skipped and at most `cap`
   * taken. Each row keeps its index in
   * the filtered list; the rows are exactly the indices of the page that
   * exist, in order.
   */
  function VisibleWindow<T>(filtered: seq<T>, page: nat, cap: nat): (r: seq<(nat, T)>)
    ensures |r| <= cap
    ensures forall k :: 0 <= k < |r| ==> r[k].0 == page * cap + k && r[k].0 < |filtered| && r[k].1 == filtered[r[k].0]
    ensures page * cap >= |filtered| ==> |r| == 0
    ensures page * cap < |filtered| ==> |r| == if |filtered| - page * cap < cap then |filtered| - page * cap else cap
  {
    var e := Enumerate(filtered);
    var skipped := if page * cap <= |e| then e[page * cap..] else [];
    if cap <= |skipped| then skipped[..cap] else skipped
  }

  /**
   * The position search over the items at commit: the first index whose
   * title equals `title`, or nothing when no title does.
   */
  function FirstIndexOf(items: seq<Item>, title: string): (r: Option<nat>)
    ensures r.Some? ==> r.value < |items| && items[r.value].title == title
    ensures r.Some? ==> forall j :: 0 <= j < r.value ==> items[j].title != title
    ensures r.None? <==> forall j :: 0 <= j < |items| ==> items[j].title != title
  {
    if items == [] then None
    else if items[0].title == title then Some(0)
    else
      match FirstIndexOf(items[1..], title)
      case Some(i) => Some(i + 1)
      case None => None
  }
}

=== FILE: frame.dfy ===
/**
 * One pass of the loop in `FuzzySelect::_interact_on`
 * (src/internal/select/select.rs): erase the last frame, draw the query
 * line and the visible rows, dispatch the key, then either leave (erasing
 * and reporting as configured, showing the cursor again) or erase the body
 * for the next pass. The scorer, the pager and the terminal width are
 * inputs.
 */
module Frame {
  import opened Options
  import opened Chars
  import opened Doc
  import opened Theme
  import opened Renderer
  import opened Filter
  import opened Select
  import opened Builder

  /** The external fuzzy matcher: `fuzzy_match` and the matched positions of `fuzzy_indices`. */
  datatype Matcher = Matcher(score: Scorer, indices: (string, string) -> Option<seq<nat>>)

  /** The pager's view of this frame: the page shown, its capacity, the indicator, the page keys. */
  datatype PageView = PageView(currentPage: nat, capacity: nat, info: Option<(nat, nat)>, pager: Pager)

  /** How one pass ends: the loop goes on, the interaction returns, or it panics. */
  datatype Pass =
    | Looping(state: State, renderer: Renderer, pagingAnchor: nat)
    | Done(choice: Option<nat>, renderer: Renderer)
    | Panicked(renderer: Renderer)

  /** Character counts of the item titles (byte lengths for ASCII titles), one per item: `size_vec`, collected before the loop. */
  function TitleSizes(items: seq<Item>): (sizes: seq<nat>)
    ensures |sizes| == |items|
    ensures forall i :: 0 <= i < |items| ==> sizes[i] == |items[i].title|
  {
    seq(|items|, i requires 0 <= i < |items| => |items[i].title|)
  }

  /** The line drawn for one visible row. */
  function RowDoc(t: Theme, row: (nat, Scored), sel: Option<nat>, highlight: bool, m: Matcher, query: string): seq<Piece>
  {
    FormatFuzzySelectPromptItem(t, row.1.item.title, Some(row.0) == sel, highlight, m.indices(row.1.item.title, query))
  }

  /** Visible widths of the item lines drawn for `rows`, in drawing order. */
  function LineWidths(t: Theme, rows: seq<(nat, Scored)>, sel: Option<nat>, highlight: bool, m: Matcher, query: string): (widths: seq<nat>)
    ensures |widths| == |rows|
  {
    seq(|rows|, k requires 0 <= k < |rows| => |Text(RowDoc(t, rows[k], sel, highlight, m, query))|)
  }

  /** The `k`-th line drawn is as wide as the theme's marker for it, a space and the title. */
  lemma LineWidthAt(t: Theme, rows: seq<(nat, Scored)>, sel: Option<nat>, highlight: bool, m: Matcher, query: string, k: nat)
    requires k < |rows|
    ensures LineWidths(t, rows, sel, highlight, m, query)[k]
         == |ItemMarker(t, Some(rows[k].0) == sel)| + 1 + |rows[k].1.item.title|
  {
    ItemLineKeepsText(t, rows[k].1.item.title, Some(rows[k].0) == sel, highlight, m.indices(rows[k].1.item.title, query));
  }

  /** The terminal operations drawing `rows`: one item line per row, in order. */
  function RowLines(t: Theme, rows: seq<(nat, Scored)>, sel: Option<nat>, highlight: bool, m: Matcher, query: string): (ops: seq<TermOp>)
    ensures |ops| == |rows|
    decreases |rows|
  {
    if rows == [] then []
    else
      var n := |rows| - 1;
      RowLines(t, rows[..n], sel, highlight, m, query) + [WriteLine(RowDoc(t, rows[n], sel, highlight, m, query))]
  }

  /** The `k`-th operation draws the `k`-th row, active exactly when its index is the selection. */
  lemma {:induction false} RowLinesAt(t: Theme, rows: seq<(nat, Scored)>, sel: Option<nat>, highlight: bool, m: Matcher, query: string, k: nat)
    requires k < |rows|
    ensures RowLines(t, rows, sel, highlight, m, query)[k]
         == WriteLine(FormatFuzzySelectPromptItem(t, rows[k].1.item.title, Some(rows[k].0) == sel, highlight, m.indices(rows[k].1.item.title, query)))
    decreases |rows|
  {
    var n := |rows| - 1;
    var front := RowLines(t, rows[..n], sel, highlight, m, query);
    assert RowLines(t, rows, sel, highlight, m, query) == front + [WriteLine(RowDoc(t, rows[n], sel, highlight, m, query))];
    if k < n {
      RowLinesAt(t, rows[..n], sel, highlight, m, query, k);
      assert rows[..n][k] == rows[k];
      assert (front + [WriteLine(RowDoc(t, rows[n], sel, highlight, m, query))])[k] == front[k];
    }
  }

  /** No visible title and neither item marker holds a line break, so each row is one line. */
  predicate SingleLineRows(t: Theme, rows: seq<(nat, Scored)>)
  {
    && (forall k :: 0 <= k < |rows| ==> !('\n' in rows[k].1.item.title))
    && !('\n' in ItemMarker(t, true))
    && !('\n' in ItemMarker(t, false))
  }

  /**
   * The `for` loop over the visible rows: one item line each, in order; a
   * row is drawn active exactly when its index in the filtered list is the
   * selection.
   */
  function DrawRows(r: Renderer, rows: seq<(nat, Scored)>, sel: Option<nat>, highlight: bool, m: Matcher, query: string): (r': Renderer)
    ensures r'.log == r.log + RowLines(r.theme, rows, sel, highlight, m, query)
    ensures r'.promptHeight == r.promptHeight && r'.theme == r.theme
    ensures r'.promptsResetHeight == r.promptsResetHeight
    decreases |rows|
  {
    if rows == [] then
      assert r.log + RowLines(r.theme, rows, sel, highlight, m, query) == r.log;
      r
    else
      var n := |rows| - 1;
      var last := rows[n];
      var r1 := DrawRows(r, rows[..n], sel, highlight, m, query);
      var r2 := FuzzySelectPromptItem(r1, last.1.item.title, Some(last.0) == sel, highlight, m.indices(last.1.item.title, query));
      LogAppendStep(r.log, RowLines(r.theme, rows[..n], sel, highlight, m, query), WriteLine(RowDoc(r.theme, last, sel, highlight, m, query)));
      r2
  }

  lemma LogAppendStep(base: seq<TermOp>, front: seq<TermOp>, op: TermOp)
    ensures (base + front) + [op] == base + (front + [op])
  {
  }

  /** Drawing rows keeps the counters in step with the screen. */
  lemma {:induction false} DrawRowsBalanced(r: Renderer, rows: seq<(nat, Scored)>, sel: Option<nat>, highlight: bool, m: Matcher, query: string)
    requires Balanced(r)
    ensures Balanced(DrawRows(r, rows, sel, highlight, m, query))
    decreases |rows|
  {
    if rows != [] {
      var n := |rows| - 1;
      DrawRowsBalanced(r, rows[..n], sel, highlight, m, query);
      var r1 := DrawRows(r, rows[..n], sel, highlight, m, query);
      DrawRowsLast(r, rows, sel, highlight, m, query);
      FuzzySelectPromptItemRows(r1, rows[n].1.item.title, Some(rows[n].0) == sel, highlight, m.indices(rows[n].1.item.title, query));
    }
  }

  /** Drawing a non-empty list of rows is drawing all but the last, then the last. */
  lemma DrawRowsLast(r: Renderer, rows: seq<(nat, Scored)>, sel: Option<nat>, highlight: bool, m: Matcher, query: string)
    requires rows != []
    ensures var n := |rows| - 1;
      DrawRows(r, rows, sel, highlight, m, query)
        == FuzzySelectPromptItem(DrawRows(r, rows[..n], sel, highlight, m, query), rows[n].1.item.title,
                                 Some(rows[n].0) == sel, highlight, m.indices(rows[n].1.item.title, query))
  {
  }

  lemma SingleLineRowsPrefix(t: Theme, rows: seq<(nat, Scored)>, n: nat)
    requires n <= |rows| && SingleLineRows(t, rows)
    ensures SingleLineRows(t, rows[..n])
  {
    forall k | 0 <= k < n ensures !('\n' in rows[..n][k].1.item.title) {
      assert rows[..n][k] == rows[k];
    }
  }

  /** Single-line rows add exactly one body row each. */
  lemma {:induction false} DrawRowsHeight(r: Renderer, rows: seq<(nat, Scored)>, sel: Option<nat>, highlight: bool, m: Matcher, query: string)
    requires SingleLineRows(r.theme, rows)
    ensures DrawRows(r, rows, sel, highlight, m, query).height == r.height + |rows|
    decreases |rows|
  {
    if rows != [] {
      var n := |rows| - 1;
      SingleLineRowsPrefix(r.theme, rows, n);
      DrawRowsHeight(r, rows[..n], sel, highlight, m, query);
      var r1 := DrawRows(r, rows[..n], sel, highlight, m, query);
      DrawRowsLast(r, rows, sel, highlight, m, query);
      assert r1.theme == r.theme && !('\n' in rows[n].1.item.title);
      FuzzySelectPromptItemRows(r1, rows[n].1.item.title, Some(rows[n].0) == sel, highlight, m.indices(rows[n].1.item.title, query));
    }
  }

  /** The filtered list of this frame and the window of it that the current page shows. */
  function Page(items: seq<Item>, query: string, score: Scorer, pv: PageView): (res: (seq<Scored>, seq<(nat, Scored)>))
    ensures IsFilteredList(items, query, score, res.0)
    ensures res.1 == VisibleWindow(res.0, pv.currentPage, pv.capacity)
    ensures |res.1| <= pv.capacity
    ensures forall k :: 0 <= k < |res.1| ==> res.1[k].0 == pv.currentPage * pv.capacity + k && res.1[k].0 < |res.0| && res.1[k].1 == res.0[res.1[k].0]
  {
    var filtered := FilteredList(items, query, score);
    (filtered, VisibleWindow(filtered, pv.currentPage, pv.capacity))
  }

  /**
   * Top of the loop: `clear`, the query line through the pager's
   * `render_prompt`, the filtered list, the visible rows. Returns the
   * renderer and this frame's filtered list.
   */
  function Draw(cfg: FuzzySelect, s: State, r: Renderer, m: Matcher, pv: PageView): (res: (Renderer, seq<Scored>))
    requires r.theme == cfg.theme && r.promptsResetHeight
    ensures IsFilteredList(cfg.items, s.query, m.score, res.1)
    ensures res.0.log == r.log
      + [ClearLastLines(r.height + r.promptHeight), WriteLine(FuzzyPromptDoc(r.theme, cfg.prompt, s.query, s.position, pv.info))]
      + RowLines(r.theme, VisibleWindow(res.1, pv.currentPage, pv.capacity), s.sel, cfg.highlightMatches, m, s.query)
    ensures res.1 == Page(cfg.items, s.query, m.score, pv).0
    ensures res.0.theme == r.theme && res.0.promptsResetHeight
  {
    var r1 := Clear(r);
    var r2 := FuzzySelectPrompt(r1, cfg.prompt, s.query, s.position, pv.info);
    var (filtered, rows) := Page(cfg.items, s.query, m.score, pv);
    DrawLog(r, cfg.prompt, s.query, s.position, pv.info, rows, s.sel, cfg.highlightMatches, m);
    (DrawRows(r2, rows, s.sel, cfg.highlightMatches, m, s.query), filtered)
  }

  /** The operations of a frame: the erase, the query line, then one item line per row. */
  lemma DrawLog(r: Renderer, prompt: string, query: string, position: nat, info: Option<(nat, nat)>,
                rows: seq<(nat, Scored)>, sel: Option<nat>, highlight: bool, m: Matcher)
    ensures var r2 := FuzzySelectPrompt(Clear(r), prompt, query, position, info);
      DrawRows(r2, rows, sel, highlight, m, query).log
        == r.log + [ClearLastLines(r.height + r.promptHeight), WriteLine(FuzzyPromptDoc(r.theme, prompt, query, position, info))]
           + RowLines(r.theme, rows, sel, highlight, m, query)
  {
    var r2 := FuzzySelectPrompt(Clear(r), prompt, query, position, info);
    assert r2.log == r.log + [ClearLastLines(r.height + r.promptHeight), WriteLine(FuzzyPromptDoc(r.theme, prompt, query, position, info))];
  }

  /** Widths of the item lines a frame draws. */
  function DrawnWidths(cfg: FuzzySelect, s: State, r: Renderer, m: Matcher, pv: PageView): (widths: seq<nat>)
    ensures |widths| == |Page(cfg.items, s.query, m.score, pv).1|
  {
    LineWidths(r.theme, Page(cfg.items, s.query, m.score, pv).1, s.sel, cfg.highlightMatches, m, s.query)
  }

  /** A frame starts by erasing the previous one: body and prompt rows, as the counters record them. */
  lemma DrawStartsWithErase(cfg: FuzzySelect, s: State, r: Renderer, m: Matcher, pv: PageView)
    requires r.theme == cfg.theme && r.promptsResetHeight
    ensures var log := Draw(cfg, s, r, m, pv).0.log;
      |r.log| < |log| && log[|r.log|] == ClearLastLines(r.height + r.promptHeight)
  {
    var r1 := Clear(r);
    var r2 := FuzzySelectPrompt(r1, cfg.prompt, s.query, s.position, pv.info);
    var rows := Page(cfg.items, s.query, m.score, pv).1;
    var lines := RowLines(r.theme, rows, s.sel, cfg.highlightMatches, m, s.query);
    LogExtends(r1.log, r2.log[|r1.log|..], lines, |r.log|);
  }

  /** An entry of a log survives every later append. */
  lemma LogExtends(a: seq<TermOp>, b: seq<TermOp>, c: seq<TermOp>, i: nat)
    requires i < |a|
    ensures i < |a + b + c| && (a + b + c)[i] == a[i]
  {
  }

  /**
   * The frame is drawn on a clean slate: the erase at the top removes
   * exactly the lines on screen, and afterwards the counters again account
   * for everything drawn.
   */
  lemma DrawBalanced(cfg: FuzzySelect, s: State, r: Renderer, m: Matcher, pv: PageView)
    requires r.theme == cfg.theme && r.promptsResetHeight && Balanced(r)
    ensures OnScreen(r.log + [ClearLastLines(r.height + r.promptHeight)]) == 0
    ensures Balanced(Draw(cfg, s, r, m, pv).0)
  {
    var r1 := Clear(r);
    var r2 := FuzzySelectPrompt(r1, cfg.prompt, s.query, s.position, pv.info);
    FuzzySelectPromptBalanced(r1, cfg.prompt, s.query, s.position, pv.info);
    var rows := Page(cfg.items, s.query, m.score, pv).1;
    DrawRowsBalanced(r2, rows, s.sel, cfg.highlightMatches, m, s.query);
  }

  /** Before the loop the cursor is hidden; nothing on screen changes. */
  function Begin(r: Renderer): (r': Renderer)
    ensures r'.log == r.log + [HideCursor]
    ensures OnScreen(r'.log) == OnScreen(r.log)
    ensures r'.height == r.height && r'.promptHeight == r.promptHeight && r'.theme == r.theme
  {
    OnScreenSnoc(r.log, HideCursor);
    r.(log := r.log + [HideCursor])
  }

  /** Hiding the cursor keeps the counters in step with the screen. */
  lemma BeginBalanced(r: Renderer)
    requires Balanced(r)
    ensures Balanced(Begin(r))
  {
  }

  /**
   * Leaving the loop: erase the frame when `clear` is set, write the
   * confirmation line for a committed title when `report` is set, then show
   * the cursor again.
   */
  function Leave(cfg: FuzzySelect, r: Renderer, committed: Option<string>): (r': Renderer)
    ensures |r'.log| > |r.log| && r'.log[|r'.log| - 1] == ShowCursor
    ensures r'.log == r.log
      + (if cfg.clear then [ClearLastLines(r.height + r.promptHeight)] else [])
      + (if committed.Some? && cfg.report then [WriteLine(FormatInputPromptSelection(r.theme, cfg.prompt, committed.value))] else [])
      + [ShowCursor]
    ensures !cfg.clear && (committed.None? || !cfg.report) ==> r'.log == r.log + [ShowCursor]
    ensures r'.theme == r.theme
  {
    var r1 := if cfg.clear then Clear(r) else r;
    var r2 := if committed.Some? && cfg.report then InputPromptSelection(r1, cfg.prompt, committed.value) else r1;
    r2.(log := r2.log + [ShowCursor])
  }

  /**
   * One full pass. Escape in Normal mode erases the frame when `clear` is
   * set and returns nothing; a commit erases when `clear` is set, writes the
   * confirmation line when `report` is set, and returns the item index;
   * both show the cursor again. Otherwise the pager is updated from the
   * selection and the body is erased together with the rows the drawn
   * item lines wrap into (`clear_preserve_prompt` as intended; see
   * `ClearPreservePrompt` for the count as written).
   */
  function Iterate(cfg: FuzzySelect, s: State, r: Renderer, m: Matcher, pv: PageView, key: Key, cols: nat): (p: Pass)
    requires Valid(s) && cols > 0
    requires r.theme == cfg.theme && r.promptsResetHeight
    ensures p.Done? ==> |p.renderer.log| > 0 && p.renderer.log[|p.renderer.log| - 1] == ShowCursor
    ensures p.Done? ==> s.mode == Normal && (key == Escape || key == Enter)
    ensures p.Looping? ==> Valid(p.state) && p.renderer.height == 0 && p.renderer.theme == r.theme
    ensures p.Looping? ==> p.pagingAnchor == p.state.sel.UnwrapOr(0)
  {
    var (r1, filtered) := Draw(cfg, s, r, m, pv);
    match Step(s, key, cfg.items, ItemsOf(filtered), pv.pager)
    case Continue(s') =>
      Looping(s', ClearBody(r1, DrawnWidths(cfg, s, r, m, pv), cols), PagingAnchor(s'))
    case Exit(choice) =>
      Done(choice, Leave(cfg, r1, if key == Enter then Some(filtered[s.sel.value].item.title) else None))
    case IndexPanic =>
      Panicked(if cfg.clear then Clear(r1) else r1)
  }

  /** Every item's line, with either marker of the theme, fits on one terminal row. */
  predicate FitsTerminal(t: Theme, items: seq<Item>, cols: nat)
  {
    forall it :: it in items ==>
      |ItemMarker(t, true)| + 1 + |it.title| <= cols && |ItemMarker(t, false)| + 1 + |it.title| <= cols
  }

  /** No item title and neither item marker of the theme breaks the line. */
  predicate SingleLineItems(t: Theme, items: seq<Item>)
  {
    && (forall it :: it in items ==> !('\n' in it.title))
    && !('\n' in ItemMarker(t, true))
    && !('\n' in ItemMarker(t, false))
  }

  /**
   * Every row of a page of any admissible filtered list holds one of the
   * items, whatever order the sort gave equal scores.
   */
  lemma AdmissibleRowFromItems(items: seq<Item>, query: string, score: Scorer, out: seq<Scored>, page: nat, cap: nat, k: nat)
    requires IsFilteredList(items, query, score, out)
    requires k < |VisibleWindow(out, page, cap)|
    ensures VisibleWindow(out, page, cap)[k].1.item in items
  {
    var rows := VisibleWindow(out, page, cap);
    assert rows[k].1 == out[rows[k].0];
    assert rows[k].1 in out;
    FilteredMembers(items, query, score, out);
  }

  /** Every visible row of a frame holds one of the items. */
  lemma VisibleRowFromItems(items: seq<Item>, query: string, score: Scorer, pv: PageView, k: nat)
    requires k < |Page(items, query, score, pv).1|
    ensures Page(items, query, score, pv).1[k].1.item in items
  {
    AdmissibleRowFromItems(items, query, score, Page(items, query, score, pv).0, pv.currentPage, pv.capacity, k);
  }

  /**
   * Whatever order the sort gave equal scores: when every item line fits
   * the terminal, so does every line drawn for a page of the filtered list.
   */
  lemma AdmissibleWidthsFit(t: Theme, items: seq<Item>, query: string, out: seq<Scored>, pv: PageView,
                            sel: Option<nat>, highlight: bool, m: Matcher, cols: nat)
    requires IsFilteredList(items, query, m.score, out)
    requires FitsTerminal(t, items, cols)
    ensures var widths := LineWidths(t, VisibleWindow(out, pv.currentPage, pv.capacity), sel, highlight, m, query);
      forall k :: 0 <= k < |widths| ==> widths[k] <= cols
  {
    var rows := VisibleWindow(out, pv.currentPage, pv.capacity);
    var widths := LineWidths(t, rows, sel, highlight, m, query);
    forall k | 0 <= k < |widths|
      ensures widths[k] <= cols
    {
      AdmissibleRowFromItems(items, query, m.score, out, pv.currentPage, pv.capacity, k);
      LineWidthAt(t, rows, sel, highlight, m, query, k);
    }
  }

  /**
   * When every item line fits the terminal, a pass that goes on leaves
   * exactly the query line on screen and the counters say so.
   */
  lemma IterateKeepsPrompt(cfg: FuzzySelect, s: State, r: Renderer, m: Matcher, pv: PageView, key: Key, cols: nat)
    requires Valid(s) && cols > 0
    requires r.theme == cfg.theme && r.promptsResetHeight && Balanced(r)
    requires FitsTerminal(r.theme, cfg.items, cols)
    ensures var p := Iterate(cfg, s, r, m, pv, key, cols);
      p.Looping? ==> Balanced(p.renderer) && OnScreen(p.renderer.log) == p.renderer.promptHeight
  {
    DrawnWidthsFit(cfg, s, r, m, pv, cols);
    DrawThenEraseKeepsPrompt(cfg, s, r, m, pv, cols);
    IterateLooping(cfg, s, r, m, pv, key, cols);
  }

  /** When every item line fits the terminal, so does every line a frame draws. */
  lemma DrawnWidthsFit(cfg: FuzzySelect, s: State, r: Renderer, m: Matcher, pv: PageView, cols: nat)
    requires FitsTerminal(r.theme, cfg.items, cols)
    ensures var widths := DrawnWidths(cfg, s, r, m, pv);
      forall k :: 0 <= k < |widths| ==> widths[k] <= cols
  {
    var filtered := Page(cfg.items, s.query, m.score, pv).0;
    AdmissibleWidthsFit(r.theme, cfg.items, s.query, filtered, pv, s.sel, cfg.highlightMatches, m, cols);
  }

  /**
   * When every item line fits the terminal, the erase as written, over the
   * sizes of all item titles, is the intended erase of the drawn lines:
   * neither count adds a row.
   */
  lemma AsWrittenEraseAgrees(cfg: FuzzySelect, s: State, r: Renderer, m: Matcher, pv: PageView, cols: nat)
    requires cols > 0
    requires r.theme == cfg.theme && r.promptsResetHeight
    requires FitsTerminal(r.theme, cfg.items, cols)
    ensures TotalOverflowAsWritten(TitleSizes(cfg.items), cols) == 0
    ensures TotalOverflow(DrawnWidths(cfg, s, r, m, pv), cols) == 0
    ensures var drawn := Draw(cfg, s, r, m, pv).0;
      ClearPreservePrompt(drawn, TitleSizes(cfg.items), cols) == ClearBody(drawn, DrawnWidths(cfg, s, r, m, pv), cols)
  {
    var sizes := TitleSizes(cfg.items);
    forall i | 0 <= i < |sizes|
      ensures sizes[i] <= cols
    {
      assert cfg.items[i] in cfg.items;
    }
    NoOverflowAsWritten(sizes, cols);
    DrawnWidthsFit(cfg, s, r, m, pv, cols);
    NoOverflow(DrawnWidths(cfg, s, r, m, pv), cols);
    ErasesAgree(Draw(cfg, s, r, m, pv).0, sizes, DrawnWidths(cfg, s, r, m, pv), cols);
  }

  /**
   * The pass as the program writes it, erasing with `clear_preserve_prompt`
   * over the sizes of all titles, is the modelled pass when every item line
   * fits the terminal, and so it too leaves exactly the query line on screen.
   */
  lemma IterateAsWrittenKeepsPrompt(cfg: FuzzySelect, s: State, r: Renderer, m: Matcher, pv: PageView, key: Key, cols: nat)
    requires Valid(s) && cols > 0
    requires r.theme == cfg.theme && r.promptsResetHeight && Balanced(r)
    requires FitsTerminal(r.theme, cfg.items, cols)
    ensures var p := Iterate(cfg, s, r, m, pv, key, cols);
      p.Looping? ==>
        && p.renderer == ClearPreservePrompt(Draw(cfg, s, r, m, pv).0, TitleSizes(cfg.items), cols)
        && Balanced(p.renderer) && OnScreen(p.renderer.log) == p.renderer.promptHeight
  {
    IterateKeepsPrompt(cfg, s, r, m, pv, key, cols);
    IterateLooping(cfg, s, r, m, pv, key, cols);
    AsWrittenEraseAgrees(cfg, s, r, m, pv, cols);
  }

  /** Drawing a frame whose rows fit and then erasing its body leaves exactly the query line. */
  lemma DrawThenEraseKeepsPrompt(cfg: FuzzySelect, s: State, r: Renderer, m: Matcher, pv: PageView, cols: nat)
    requires cols > 0
    requires r.theme == cfg.theme && r.promptsResetHeight && Balanced(r)
    requires var widths := DrawnWidths(cfg, s, r, m, pv);
      forall k :: 0 <= k < |widths| ==> widths[k] <= cols
    ensures var after := ClearBody(Draw(cfg, s, r, m, pv).0, DrawnWidths(cfg, s, r, m, pv), cols);
      Balanced(after) && OnScreen(after.log) == after.promptHeight
  {
    DrawBalanced(cfg, s, r, m, pv);
    FittingRowsKeepPrompt(Draw(cfg, s, r, m, pv).0, DrawnWidths(cfg, s, r, m, pv), cols);
  }

  /** Erasing a balanced body of item lines that fit the terminal leaves exactly the prompt. */
  lemma FittingRowsKeepPrompt(drawn: Renderer, widths: seq<nat>, cols: nat)
    requires cols > 0 && Balanced(drawn)
    requires forall k :: 0 <= k < |widths| ==> widths[k] <= cols
    ensures var after := ClearBody(drawn, widths, cols);
      Balanced(after) && OnScreen(after.log) == after.promptHeight
  {
    NoOverflow(widths, cols);
  }

  /** A pass that goes on has drawn the frame and then erased its body. */
  lemma IterateLooping(cfg: FuzzySelect, s: State, r: Renderer, m: Matcher, pv: PageView, key: Key, cols: nat)
    requires Valid(s) && cols > 0
    requires r.theme == cfg.theme && r.promptsResetHeight
    ensures var p := Iterate(cfg, s, r, m, pv, key, cols);
      p.Looping? ==> p.renderer == ClearBody(Draw(cfg, s, r, m, pv).0, DrawnWidths(cfg, s, r, m, pv), cols)
  {
  }

  /** Item lines that fit the terminal add no overflow rows. */
  lemma {:induction false} NoOverflow(widths: seq<nat>, cols: nat)
    requires cols > 0
    ensures (forall i :: 0 <= i < |widths| ==> widths[i] <= cols) ==> TotalOverflow(widths, cols) == 0
    decreases |widths|
  {
    if widths != [] {
      var n := |widths| - 1;
      NoOverflow(widths[..n], cols);
      if widths[n] <= cols {
        var q := ScreenRows(widths[n], cols);
        if q > 1 {
          MulAtLeast(q - 1, cols);
        }
      }
    }
  }

  /**
   * The erase at the end of a pass removes exactly the terminal rows the
   * drawn item lines occupy, measured on the lines as written (marker,
   * space, title) and wrapped rows included, when no title and neither
   * marker breaks the line.
   */
  lemma EraseMatchesDrawnRows(cfg: FuzzySelect, s: State, r: Renderer, m: Matcher, pv: PageView, key: Key, cols: nat)
    requires Valid(s) && cols > 0
    requires r.theme == cfg.theme && r.promptsResetHeight
    requires SingleLineItems(r.theme, cfg.items)
    ensures var p := Iterate(cfg, s, r, m, pv, key, cols);
      p.Looping? ==>
        |p.renderer.log| > 0 && p.renderer.log[|p.renderer.log| - 1] == ClearLastLines(PhysicalRows(DrawnWidths(cfg, s, r, m, pv), cols))
  {
    DrawHeight(cfg, s, r, m, pv);
    ErasesPhysicalRows(Draw(cfg, s, r, m, pv).0, DrawnWidths(cfg, s, r, m, pv), cols);
    IterateLooping(cfg, s, r, m, pv, key, cols);
  }

  /** A body of one row per item line is erased together with exactly the rows those lines wrap into. */
  lemma ErasesPhysicalRows(drawn: Renderer, widths: seq<nat>, cols: nat)
    requires cols > 0 && drawn.height == |widths|
    ensures var log := ClearBody(drawn, widths, cols).log;
      |log| > 0 && log[|log| - 1] == ClearLastLines(PhysicalRows(widths, cols))
  {
    OverflowCountsWrappedRows(widths, cols);
  }

  /** The body of a frame is one row per visible item when no item line breaks. */
  lemma DrawHeight(cfg: FuzzySelect, s: State, r: Renderer, m: Matcher, pv: PageView)
    requires r.theme == cfg.theme && r.promptsResetHeight
    requires SingleLineItems(r.theme, cfg.items)
    ensures Draw(cfg, s, r, m, pv).0.height == |Page(cfg.items, s.query, m.score, pv).1|
  {
    var rows := Page(cfg.items, s.query, m.score, pv).1;
    forall k | 0 <= k < |rows|
      ensures !('\n' in rows[k].1.item.title)
    {
      VisibleRowFromItems(cfg.items, s.query, m.score, pv, k);
    }
    var r2 := FuzzySelectPrompt(Clear(r), cfg.prompt, s.query, s.position, pv.info);
    DrawRowsHeight(r2, rows, s.sel, cfg.highlightMatches, m, s.query);
  }

  /** The configuration of the over-erase example: titles `"a"` and `"bbbbbbbb"`, plain theme. */
  function TwoTitles(): FuzzySelect
  {
    WithTheme(SimpleTheme).(items := [Item("a", ""), Item("bbbbbbbb", "")])
  }

  /** A matcher that accepts both titles and ranks `"a"` first. */
  function RanksShortFirst(): Matcher
  {
    Matcher((title: string, query: string) => if title == "a" then Some(1) else Some(0),
            (title: string, query: string) => None)
  }

  /** The first page, one row per page, paging inactive. */
  function OneRowPage(): PageView
  {
    PageView(0, 1, None, Pager(false, 0, 0))
  }

  /** The example's filtered list is `"a"` then `"bbbbbbbb"`, and only `"a"` is on the page. */
  lemma TwoTitlesPage()
    ensures Page(TwoTitles().items, "", RanksShortFirst().score, OneRowPage()).1
         == [(0, Scored(Item("a", ""), 1))]
  {
    TwoTitlesFiltered();
    FirstOfTwoOnPage(Scored(Item("a", ""), 1), Scored(Item("bbbbbbbb", ""), 0));
  }

  /** A page of one row over a two-entry list shows the first entry, at index 0. */
  lemma FirstOfTwoOnPage<T>(x: T, y: T)
    ensures VisibleWindow([x, y], 0, 1) == [(0, x)]
  {
    var w := VisibleWindow([x, y], 0, 1);
    assert |w| == 1 && w[0] == (0, x);
  }

  /** The example's filtered list: `"a"` with score 1, then `"bbbbbbbb"` with score 0. */
  lemma TwoTitlesFiltered()
    ensures FilteredList(TwoTitles().items, "", RanksShortFirst().score)
         == [Scored(Item("a", ""), 1), Scored(Item("bbbbbbbb", ""), 0)]
  {
    TwoTitlesScored();
    SortTwoInOrder(Scored(Item("a", ""), 1), Scored(Item("bbbbbbbb", ""), 0));
  }

  /** Two entries already best first stay in that order. */
  lemma SortTwoInOrder(x: Scored, y: Scored)
    requires x.score >= y.score
    ensures SortByScore([x, y]) == [x, y]
  {
    assert [x, y][1..] == [y];
    assert [y][1..] == [];
    assert SortByScore([y]) == [y];
  }

  /** Both example titles are accepted, in item order, with the matcher's scores. */
  lemma TwoTitlesScored()
    ensures ScoreAll(TwoTitles().items, "", RanksShortFirst().score)
         == [Scored(Item("a", ""), 1), Scored(Item("bbbbbbbb", ""), 0)]
  {
    var items := TwoTitles().items;
    var score := RanksShortFirst().score;
    assert items[1..] == [Item("bbbbbbbb", "")];
    assert items[1..][1..] == [];
    assert ScoreAll(items[1..], "", score) == [Scored(Item("bbbbbbbb", ""), 0)];
  }

  /** The one line drawn in the example is `"  a"`, the inactive marker, a space and the title: three columns. */
  lemma TwoTitlesWidths(r: Renderer)
    requires r.theme == SimpleTheme
    ensures DrawnWidths(TwoTitles(), InitialState(TwoTitles()), r, RanksShortFirst(), OneRowPage()) == [3]
  {
    var cfg := TwoTitles();
    TwoTitlesFresh();
    TwoTitlesPage();
    SingleRowWidth(r.theme, (0, Scored(Item("a", ""), 1)), cfg.highlightMatches, RanksShortFirst(), "");
    assert ItemMarker(SimpleTheme, false) == " ";
  }

  /** A fresh state of the example: empty query, nothing selected. */
  lemma TwoTitlesFresh()
    ensures InitialState(TwoTitles()).sel == None && InitialState(TwoTitles()).query == ""
  {
  }

  /** An unselected single row is drawn as the inactive marker, a space and the title. */
  lemma SingleRowWidth(t: Theme, row: (nat, Scored), highlight: bool, m: Matcher, query: string)
    ensures LineWidths(t, [row], None, highlight, m, query) == [|ItemMarker(t, false)| + 1 + |row.1.item.title|]
  {
    LineWidthAt(t, [row], None, highlight, m, query, 0);
  }

  /**
   * A drawn frame of the example, from a fresh state on a 4-column
   * terminal: only `"a"` is drawn, as the 3-column line `"  a"` that takes
   * one row, but the erase as written counts the hidden title's wrap and
   * removes three rows, two of them above the body. The drawn line does not
   * wrap, so the renderer's line count is the terminal's row count here.
   */
  lemma HiddenTitleOverErases(r: Renderer)
    requires r.theme == SimpleTheme && r.promptsResetHeight && Balanced(r)
    ensures var cfg := TwoTitles();
      var s := InitialState(cfg);
      var drawn := Draw(cfg, s, r, RanksShortFirst(), OneRowPage()).0;
      var after := ClearPreservePrompt(drawn, TitleSizes(cfg.items), 4);
      && drawn.height == 1 && Balanced(drawn)
      && DrawnWidths(cfg, s, r, RanksShortFirst(), OneRowPage()) == [3]
      && PhysicalRows(DrawnWidths(cfg, s, r, RanksShortFirst(), OneRowPage()), 4) == 1
      && after.log == drawn.log + [ClearLastLines(3)]
      && OnScreen(after.log) == drawn.promptHeight - 2
  {
    var cfg := TwoTitles();
    var drawn := Draw(cfg, InitialState(cfg), r, RanksShortFirst(), OneRowPage()).0;
    TwoTitlesDrawn(r);
    TwoTitlesWidths(r);
    ThreeColumnsOneRow();
    TwoTitlesOverflowAsWritten();
    OneLineBodyOverErased(drawn);
  }

  /** A 3-column line takes one row of a 4-column terminal. */
  lemma ThreeColumnsOneRow()
    ensures PhysicalRows([3], 4) == 1
  {
    assert [3][..0] == [];
  }

  /**
   * Any balanced one-line body, erased as written with the example's title
   * sizes on 4 columns, loses three lines: its own and two above it.
   */
  lemma OneLineBodyOverErased(drawn: Renderer)
    requires Balanced(drawn) && drawn.height == 1
    ensures ClearPreservePrompt(drawn, [1, 8], 4).log == drawn.log + [ClearLastLines(3)]
    ensures OnScreen(ClearPreservePrompt(drawn, [1, 8], 4).log) == drawn.promptHeight - 2
  {
    TwoTitlesOverflowAsWritten();
    ClearPreservePromptReach(drawn, [1, 8], 4);
  }

  /** The frame drawn in the example is one body line tall and balanced. */
  lemma TwoTitlesDrawn(r: Renderer)
    requires r.theme == SimpleTheme && r.promptsResetHeight && Balanced(r)
    ensures var cfg := TwoTitles();
      var drawn := Draw(cfg, InitialState(cfg), r, RanksShortFirst(), OneRowPage()).0;
      drawn.height == 1 && Balanced(drawn)
  {
    var cfg := TwoTitles();
    var s := InitialState(cfg);
    var m := RanksShortFirst();
    var pv := OneRowPage();
    TwoTitlesPage();
    assert s.query == "";
    TwoTitlesSingleLine();
    DrawHeight(cfg, s, r, m, pv);
    DrawBalanced(cfg, s, r, m, pv);
  }

  /** Neither example title nor the plain theme's markers hold a line break. */
  lemma TwoTitlesSingleLine()
    ensures SingleLineItems(SimpleTheme, TwoTitles().items)
  {
    forall it | it in TwoTitles().items
      ensures !('\n' in it.title)
    {
    }
  }

  /** On a 4-column terminal the erase as written counts two extra rows for the 8-character hidden title. */
  lemma TwoTitlesOverflowAsWritten()
    ensures TitleSizes(TwoTitles().items) == [1, 8]
    ensures TotalOverflowAsWritten([1, 8], 4) == 2
  {
    assert [1, 8][..1] == [1];
  }
}

=== FILE: options.dfy ===
/** The optional value used throughout the model, standing for Rust's `Option`. */
module Options {

  datatype Option<+T> = None | Some(value: T) {

    /** The contained value, or `default` when there is none (Rust's `unwrap_or`). */
    function UnwrapOr(default: T): T {
      match this
      case Some(v) => v
      case None => default
    }
  }
}

=== FILE: renderer.dfy ===
/**
 * `TermThemeRenderer` of `src/internal/select/theme.rs`: writes formatted
 * lines and keeps two counters, `height` (rows of the body) and
 * `promptHeight` (rows of the prompt line), so that the next frame can erase
 * exactly what the last one drew. The terminal is a log of the operations
 * sent to it; the column count is a parameter.
 */
module Renderer {
  import opened Options
  import opened Chars
  import opened Doc
  import opened Theme

  /**
   * What is asked of the terminal: `write_str`, `write_line`,
   * `clear_last_lines`, and the cursor visibility calls of the loop.
   */
  datatype TermOp =
    | WriteStr(doc: seq<Piece>)
    | WriteLine(doc: seq<Piece>)
    | ClearLastLines(count: nat)
    | HideCursor
    | ShowCursor

  datatype Renderer = Renderer(
    theme: Theme,
    height: nat,
    promptHeight: nat,
    promptsResetHeight: bool,
    log: seq<TermOp>)

  // ---------------------------------------------------------------------
  // Screen accounting

  /**
   * Change in the number of logical lines below the renderer's starting row
   * that one operation makes. A logical line is what the counters count: a
   * written line is one however wide it is, while `ClearLastLines(n)` takes
   * `n` terminal rows. The two units agree as long as no line wraps.
   */
  function LineDelta(op: TermOp): int
  {
    match op
    case WriteStr(d) => NewlineCount(Text(d))
    case WriteLine(d) => NewlineCount(Text(d)) + 1
    case ClearLastLines(n) => 0 - n as int
    case HideCursor => 0
    case ShowCursor => 0
  }

  /** Logical lines the log leaves on the screen, counting a wrapped line once. */
  function OnScreen(log: seq<TermOp>): int
  {
    if log == [] then 0 else OnScreen(log[..|log| - 1]) + LineDelta(log[|log| - 1])
  }

  lemma OnScreenSnoc(log: seq<TermOp>, op: TermOp)
    ensures OnScreen(log + [op]) == OnScreen(log) + LineDelta(op)
  {
    assert (log + [op])[..|log + [op]| - 1] == log;
  }

  /** The counters account for exactly the logical lines the renderer has left on screen. */
  predicate Balanced(r: Renderer)
  {
    OnScreen(r.log) == r.height + r.promptHeight
  }

  // ---------------------------------------------------------------------
  // Construction and writing

  /** `TermThemeRenderer::new`: both counters zero, prompts reset the height. */
  function New(theme: Theme): (r: Renderer)
    ensures Balanced(r) && OnScreen(r.log) == 0
    ensures r.promptsResetHeight
  {
    Renderer(theme, 0, 0, true, [])
  }

  /** `add_line`: one more body row, written by someone else; nothing else changes. */
  function AddLine(r: Renderer): (r': Renderer)
    ensures r'.height == r.height + 1
    ensures r'.promptHeight == r.promptHeight && r'.log == r.log && r'.theme == r.theme
  {
    r.(height := r.height + 1)
  }

  /**
   * `write_formatted_str`: the text goes out without a line break; the body
   * grows by the newlines inside it. Also returns the text's width.
   */
  function WriteFormattedStr(r: Renderer, doc: seq<Piece>): (res: (Renderer, nat))
    ensures res.0.height == r.height + NewlineCount(Text(doc))
    ensures res.0.log == r.log + [WriteStr(doc)]
    ensures res.0.promptHeight == r.promptHeight && res.0.theme == r.theme
    ensures res.1 == |Text(doc)|
    ensures Balanced(r) ==> Balanced(res.0)
  {
    OnScreenSnoc(r.log, WriteStr(doc));
    (r.(height := r.height + NewlineCount(Text(doc)), log := r.log + [WriteStr(doc)]), |Text(doc)|)
  }

  /** `write_formatted_line`: the text and a line break; the body grows by its newlines plus one. */
  function WriteFormattedLine(r: Renderer, doc: seq<Piece>): (r': Renderer)
    ensures r'.height == r.height + NewlineCount(Text(doc)) + 1
    ensures r'.log == r.log + [WriteLine(doc)]
    ensures r'.promptHeight == r.promptHeight && r'.theme == r.theme
    ensures r'.promptsResetHeight == r.promptsResetHeight
    ensures Balanced(r) ==> Balanced(r')
  {
    OnScreenSnoc(r.log, WriteLine(doc));
    r.(height := r.height + NewlineCount(Text(doc)) + 1, log := r.log + [WriteLine(doc)])
  }

  /**
   * `write_formatted_prompt`: writes a line; when prompts reset the height,
   * everything counted so far becomes the prompt's rows and the body starts
   * empty. The old prompt rows are overwritten, not added, so the counters
   * stay balanced only when no prompt was on screen.
   */
  function WriteFormattedPrompt(r: Renderer, doc: seq<Piece>): (r': Renderer)
    ensures r'.log == r.log + [WriteLine(doc)]
    ensures r.promptsResetHeight ==>
      r'.height == 0 && r'.promptHeight == r.height + NewlineCount(Text(doc)) + 1
    ensures !r.promptsResetHeight ==>
      r'.height == r.height + NewlineCount(Text(doc)) + 1 && r'.promptHeight == r.promptHeight
    ensures Balanced(r) && (r.promptHeight == 0 || !r.promptsResetHeight) ==> Balanced(r')
    ensures Balanced(r) && r.promptsResetHeight ==>
      OnScreen(r'.log) == r'.height + r'.promptHeight + r.promptHeight
    ensures r'.theme == r.theme && r'.promptsResetHeight == r.promptsResetHeight
  {
    var r1 := WriteFormattedLine(r, doc);
    if r.promptsResetHeight then r1.(promptHeight := r1.height, height := 0) else r1
  }

  /** `write_paging_info`: `" [Page a/b] "`. */
  function PagingInfo(page: nat, pages: nat): string
  {
    " [Page " + DecimalString(page) + "/" + DecimalString(pages) + "] "
  }

  /** The page indicator can be read back: both numbers are recovered from their fixed places. */
  lemma PagingInfoRoundTrip(page: nat, pages: nat)
    ensures var s := PagingInfo(page, pages);
      var a := DecimalString(page);
      && s[..7] == " [Page "
      && s[7 + |a|] == '/'
      && s[|s| - 2..] == "] "
      && (forall k :: 7 <= k < 7 + |a| ==> IsDigit(s[k]))
      && ParseDecimal(s[7..7 + |a|]) == page
      && (forall k :: 8 + |a| <= k < |s| - 2 ==> IsDigit(s[k]))
      && ParseDecimal(s[8 + |a|..|s| - 2]) == pages
  {
    IndicatorFields(DecimalString(page), DecimalString(pages));
    ParseDecimalString(page);
    ParseDecimalString(pages);
  }

  /** Two digit strings placed in the indicator's frame sit at fixed offsets and parse as before. */
  lemma IndicatorFields(a: string, b: string)
    requires forall k :: 0 <= k < |a| ==> IsDigit(a[k])
    requires forall k :: 0 <= k < |b| ==> IsDigit(b[k])
    ensures var s := " [Page " + a + "/" + b + "] ";
      && |s| == 10 + |a| + |b|
      && s[..7] == " [Page " && s[7 + |a|] == '/' && s[|s| - 2..] == "] "
      && (forall k :: 7 <= k < 7 + |a| ==> IsDigit(s[k]))
      && (forall k :: 8 + |a| <= k < |s| - 2 ==> IsDigit(s[k]))
      && ParseDecimal(s[7..7 + |a|]) == ParseDecimal(a)
      && ParseDecimal(s[8 + |a|..|s| - 2]) == ParseDecimal(b)
  {
    var s := " [Page " + a + "/" + b + "] ";
    assert s[7..7 + |a|] == a;
    assert s[8 + |a|..|s| - 2] == b;
    forall k | 7 <= k < 7 + |a| ensures IsDigit(s[k]) {
      assert s[k] == a[k - 7];
    }
    forall k | 8 + |a| <= k < |s| - 2 ensures IsDigit(s[k]) {
      assert s[k] == b[k - 8 - |a|];
    }
  }

  // ---------------------------------------------------------------------
  // The renderer's public operations

  /** `error`: the theme's error line. */
  function Error(r: Renderer, err: string): (r': Renderer)
    ensures r'.log == r.log + [WriteLine(FormatError(r.theme, err))]
    ensures Balanced(r) ==> Balanced(r')
  {
    WriteFormattedLine(r, FormatError(r.theme, err))
  }

  /** The pieces of the query line: the optional page indicator, then the theme's prompt. */
  function FuzzyPromptDoc(t: Theme, prompt: string, term: string, cursor: nat, pagingInfo: Option<(nat, nat)>): seq<Piece>
  {
    var info := if pagingInfo.Some? then [Raw(PagingInfo(pagingInfo.value.0, pagingInfo.value.1))] else [];
    info + FormatFuzzySelectPrompt(t, prompt, term, cursor)
  }

  /** The query line shows the page indicator, when there is one, in front of the theme's prompt. */
  lemma FuzzyPromptDocText(t: Theme, prompt: string, term: string, cursor: nat, pagingInfo: Option<(nat, nat)>)
    ensures pagingInfo.None? ==>
      Text(FuzzyPromptDoc(t, prompt, term, cursor, pagingInfo)) == Text(FormatFuzzySelectPrompt(t, prompt, term, cursor))
    ensures pagingInfo.Some? ==>
      Text(FuzzyPromptDoc(t, prompt, term, cursor, pagingInfo))
      == PagingInfo(pagingInfo.value.0, pagingInfo.value.1) + Text(FormatFuzzySelectPrompt(t, prompt, term, cursor))
  {
    var info := if pagingInfo.Some? then [Raw(PagingInfo(pagingInfo.value.0, pagingInfo.value.1))] else [];
    TextAppend(info, FormatFuzzySelectPrompt(t, prompt, term, cursor));
    if pagingInfo.Some? {
      TextSingle(info[0]);
    } else {
      assert info == [];
    }
  }

  /** `fuzzy_select_prompt`: the query line, written as a prompt. */
  function FuzzySelectPrompt(r: Renderer, prompt: string, term: string, cursor: nat, pagingInfo: Option<(nat, nat)>): (r': Renderer)
    ensures r'.log == r.log + [WriteLine(FuzzyPromptDoc(r.theme, prompt, term, cursor, pagingInfo))]
    ensures r.promptsResetHeight ==> r'.height == 0
    ensures r'.theme == r.theme && r'.promptsResetHeight == r.promptsResetHeight
  {
    WriteFormattedPrompt(r, FuzzyPromptDoc(r.theme, prompt, term, cursor, pagingInfo))
  }

  /** With no prompt on screen, writing the query line keeps the counters in step with the screen. */
  lemma FuzzySelectPromptBalanced(r: Renderer, prompt: string, term: string, cursor: nat, pagingInfo: Option<(nat, nat)>)
    requires Balanced(r) && r.promptHeight == 0
    ensures Balanced(FuzzySelectPrompt(r, prompt, term, cursor, pagingInfo))
  {
  }

  /** `input_prompt`: the theme's input prompt without a line break; returns its width. */
  function InputPrompt(r: Renderer, prompt: string, default: Option<string>): (res: (Renderer, nat))
    ensures res.0.log == r.log + [WriteStr(FormatInputPrompt(r.theme, prompt, default))]
    ensures res.1 == |Text(FormatInputPrompt(r.theme, prompt, default))|
    ensures Balanced(r) ==> Balanced(res.0)
  {
    WriteFormattedStr(r, FormatInputPrompt(r.theme, prompt, default))
  }

  /** `input_prompt_selection`: the confirmation line after a commit, written as a prompt. */
  function InputPromptSelection(r: Renderer, prompt: string, sel: string): (r': Renderer)
    ensures r'.log == r.log + [WriteLine(FormatInputPromptSelection(r.theme, prompt, sel))]
    ensures r'.theme == r.theme && r'.promptsResetHeight == r.promptsResetHeight
  {
    WriteFormattedPrompt(r, FormatInputPromptSelection(r.theme, prompt, sel))
  }

  /** With no prompt on screen, the confirmation line keeps the counters in step with the screen. */
  lemma InputPromptSelectionBalanced(r: Renderer, prompt: string, sel: string)
    requires Balanced(r) && r.promptHeight == 0
    ensures Balanced(InputPromptSelection(r, prompt, sel))
  {
  }

  /** `fuzzy_select_prompt_item`: one item row. */
  function FuzzySelectPromptItem(r: Renderer, text: string, active: bool, highlight: bool, matched: Option<seq<nat>>): (r': Renderer)
    ensures r'.log == r.log + [WriteLine(FormatFuzzySelectPromptItem(r.theme, text, active, highlight, matched))]
    ensures r'.promptHeight == r.promptHeight && r'.theme == r.theme
    ensures r'.promptsResetHeight == r.promptsResetHeight
  {
    WriteFormattedLine(r, FormatFuzzySelectPromptItem(r.theme, text, active, highlight, matched))
  }

  /**
   * An item row keeps the counters in step with the screen, and it is one
   * body row when neither the title nor the theme's marker breaks the line.
   */
  lemma FuzzySelectPromptItemRows(r: Renderer, text: string, active: bool, highlight: bool, matched: Option<seq<nat>>)
    ensures var r' := FuzzySelectPromptItem(r, text, active, highlight, matched);
      && (Balanced(r) ==> Balanced(r'))
      && (!('\n' in text) && !('\n' in ItemMarker(r.theme, active)) ==> r'.height == r.height + 1)
  {
    var doc := FormatFuzzySelectPromptItem(r.theme, text, active, highlight, matched);
    ItemLineKeepsText(r.theme, text, active, highlight, matched);
    NewlineCountIsMultiplicity(Text(doc));
    assert !('\n' in text) && !('\n' in ItemMarker(r.theme, active)) ==> !('\n' in Text(doc));
  }

  /**
   * `clear`: erase the body and the prompt and zero both counters. From a
   * balanced renderer this erases exactly the lines on screen, no more.
   */
  function Clear(r: Renderer): (r': Renderer)
    ensures r'.log == r.log + [ClearLastLines(r.height + r.promptHeight)]
    ensures r'.height == 0 && r'.promptHeight == 0
    ensures r'.theme == r.theme && r'.promptsResetHeight == r.promptsResetHeight
    ensures Balanced(r) ==> Balanced(r') && OnScreen(r'.log) == 0
  {
    OnScreenSnoc(r.log, ClearLastLines(r.height + r.promptHeight));
    r.(log := r.log + [ClearLastLines(r.height + r.promptHeight)], height := 0, promptHeight := 0)
  }

  // ---------------------------------------------------------------------
  // Wrapped rows

  /** Ceiling of `a / b`. */
  function CeilDiv(a: nat, b: nat): (q: nat)
    requires b > 0
    ensures q * b >= a
    ensures q > 0 ==> (q - 1) * b < a
  {
    (a + b - 1) / b
  }

  /** Terminal rows a written line `width` columns wide occupies when the terminal is `cols` wide. */
  function ScreenRows(width: nat, cols: nat): (rows: nat)
    requires cols > 0
    ensures rows >= 1
    ensures rows * cols >= width
    ensures rows > 1 ==> (rows - 1) * cols < width
  {
    if width == 0 then 1 else CeilDiv(width, cols)
  }

  /**
   * The width `clear_preserve_prompt` assumes for what precedes every item
   * title (`prefix_width`): a one-character marker and a space.
   */
  const PrefixWidth: nat := 2

  /**
   * The extra rows `clear_preserve_prompt` adds for one item of `size`
   * characters, as written: only when the item alone is wider than the
   * terminal, `ceil((size + 2) / cols) - 1`.
   */
  function OverflowRowsAsWritten(size: nat, cols: nat): (extra: nat)
    requires cols > 0
    ensures extra == 0 <==> size <= cols
    ensures size > cols ==> extra * cols < size + PrefixWidth <= (extra + 1) * cols
  {
    if size > cols then CeilDiv(size + PrefixWidth, cols) - 1 else 0
  }

  /** Rows beyond the first that an item line (a one-character marker, a space, `size` characters) really occupies. */
  function OverflowRows(size: nat, cols: nat): nat
    requires cols > 0
  {
    ScreenRows(size + PrefixWidth, cols) - 1
  }

  /**
   * Under either built-in theme, `SimpleTheme` or the default colorful one,
   * a marker and its space are exactly the `PrefixWidth` the erase assumes,
   * so `OverflowRows` is the real count of wrapped rows of an item line.
   */
  lemma BuiltInMarkersFitPrefix(t: Theme, active: bool, size: nat, cols: nat)
    requires cols > 0
    requires t == SimpleTheme || t == Colorful(DefaultColorfulTheme())
    ensures |ItemMarker(t, active)| + 1 == PrefixWidth
    ensures ScreenRows(|ItemMarker(t, active)| + 1 + size, cols) - 1 == OverflowRows(size, cols)
  {
    assert |ItemMarker(t, active)| == 1;
    assert |ItemMarker(t, active)| + 1 + size == size + PrefixWidth;
  }

  /**
   * The guard `size > cols` ignores the marker: the two counts differ exactly
   * for items one or two columns short of the terminal width, which wrap
   * once the marker is added but are counted as one row.
   */
  lemma OverflowGuardMissesMarker(size: nat, cols: nat)
    requires cols > 0
    ensures OverflowRowsAsWritten(size, cols) != OverflowRows(size, cols) <==> size <= cols < size + PrefixWidth
    ensures size <= cols < size + PrefixWidth ==> OverflowRowsAsWritten(size, cols) == 0 && OverflowRows(size, cols) >= 1
  {
    var q := ScreenRows(size + PrefixWidth, cols);
    if size > cols {
      assert OverflowRowsAsWritten(size, cols) == OverflowRows(size, cols);
    } else if size + PrefixWidth <= cols {
      if q > 1 {
        MulAtLeast(q - 1, cols);
        assert false;
      }
    }
  }

  lemma MulAtLeast(k: nat, c: nat)
    requires k >= 1
    ensures k * c >= c
  {
  }

  /** A 79-character title on an 80-column terminal wraps to a second row that is not erased. */
  lemma OverflowGuardExample()
    ensures OverflowRowsAsWritten(79, 80) == 0
    ensures ScreenRows(79 + PrefixWidth, 80) == 2
  {
  }

  /** Sum of `OverflowRowsAsWritten` over `sizes`. */
  function TotalOverflowAsWritten(sizes: seq<nat>, cols: nat): nat
    requires cols > 0
  {
    if sizes == [] then 0
    else TotalOverflowAsWritten(sizes[..|sizes| - 1], cols) + OverflowRowsAsWritten(sizes[|sizes| - 1], cols)
  }

  /** When no size exceeds the terminal width, the guard as written adds no row. */
  lemma {:induction false} NoOverflowAsWritten(sizes: seq<nat>, cols: nat)
    requires cols > 0
    ensures (forall i :: 0 <= i < |sizes| ==> sizes[i] <= cols) ==> TotalOverflowAsWritten(sizes, cols) == 0
    decreases |sizes|
  {
    if sizes != [] {
      NoOverflowAsWritten(sizes[..|sizes| - 1], cols);
    }
  }

  /**
   * Rows beyond the first that written lines of the given `widths` wrap
   * into: the overflow the erase of the body has to add.
   */
  function TotalOverflow(widths: seq<nat>, cols: nat): nat
    requires cols > 0
  {
    if widths == [] then 0
    else TotalOverflow(widths[..|widths| - 1], cols) + (ScreenRows(widths[|widths| - 1], cols) - 1)
  }

  /**
   * The loop of `clear_preserve_prompt`: starting from `height`, add the
   * overflow rows of every size in turn.
   */
  method CountRowsToErase(height: nat, sizes: seq<nat>, cols: nat) returns (rows: nat)
    requires cols > 0
    ensures rows == height + TotalOverflowAsWritten(sizes, cols)
    ensures (forall k :: 0 <= k < |sizes| ==> sizes[k] <= cols) ==> rows == height
  {
    rows := height;
    var i := 0;
    while i < |sizes|
      invariant 0 <= i <= |sizes|
      invariant rows == height + TotalOverflowAsWritten(sizes[..i], cols)
      invariant (forall k :: 0 <= k < i ==> sizes[k] <= cols) ==> rows == height
    {
      assert sizes[..i + 1][..i] == sizes[..i];
      if sizes[i] > cols {
        rows := rows + CeilDiv(sizes[i] + PrefixWidth, cols) - 1;
      }
      i := i + 1;
    }
    assert sizes[..|sizes|] == sizes;
  }

  /**
   * `clear_preserve_prompt`, as written: erase the body plus the overflow
   * rows of every size given, zero the body and keep the prompt.
   */
  function ClearPreservePrompt(r: Renderer, sizes: seq<nat>, cols: nat): (r': Renderer)
    requires cols > 0
    ensures r'.log == r.log + [ClearLastLines(r.height + TotalOverflowAsWritten(sizes, cols))]
    ensures r'.height == 0 && r'.promptHeight == r.promptHeight
    ensures r'.theme == r.theme && r'.promptsResetHeight == r.promptsResetHeight
    ensures Balanced(r) && TotalOverflowAsWritten(sizes, cols) == 0 ==>
      Balanced(r') && OnScreen(r'.log) == r.promptHeight
  {
    var n := r.height + TotalOverflowAsWritten(sizes, cols);
    var r' := r.(log := r.log + [ClearLastLines(n)], height := 0);
    OnScreenSnoc(r.log, ClearLastLines(n));
    assert OnScreen(r'.log) == OnScreen(r.log) - n;
    r'
  }

  /**
   * With no overflow on either side, the erase as written and the intended
   * erase leave the same renderer.
   */
  lemma ErasesAgree(r: Renderer, sizes: seq<nat>, widths: seq<nat>, cols: nat)
    requires cols > 0
    requires TotalOverflowAsWritten(sizes, cols) == 0 && TotalOverflow(widths, cols) == 0
    ensures ClearPreservePrompt(r, sizes, cols) == ClearBody(r, widths, cols)
  {
  }

  /** Terminal rows that written lines of the given `widths` occupy. */
  function PhysicalRows(widths: seq<nat>, cols: nat): nat
    requires cols > 0
  {
    if widths == [] then 0
    else PhysicalRows(widths[..|widths| - 1], cols) + ScreenRows(widths[|widths| - 1], cols)
  }

  /** One row per line plus its overflow rows is exactly the rows the lines occupy. */
  lemma {:induction false} OverflowCountsWrappedRows(widths: seq<nat>, cols: nat)
    requires cols > 0
    ensures |widths| + TotalOverflow(widths, cols) == PhysicalRows(widths, cols)
    decreases |widths|
  {
    if widths != [] {
      OverflowCountsWrappedRows(widths[..|widths| - 1], cols);
    }
  }

  /**
   * From a balanced renderer, counted in the renderer's logical lines, the
   * erase of `clear_preserve_prompt` as written ends as many lines past the
   * body as its overflow count says, whether or not those items were drawn.
   */
  lemma ClearPreservePromptReach(r: Renderer, sizes: seq<nat>, cols: nat)
    requires cols > 0 && Balanced(r)
    ensures OnScreen(ClearPreservePrompt(r, sizes, cols).log) == r.promptHeight - TotalOverflowAsWritten(sizes, cols)
  {
    OnScreenSnoc(r.log, ClearLastLines(r.height + TotalOverflowAsWritten(sizes, cols)));
  }

  /**
   * The intended `clear_preserve_prompt`: erase the body plus the rows the
   * drawn item lines, of the given `lineWidths`, really wrap into; zero the
   * body and keep the prompt. When nothing drawn wraps, exactly the prompt
   * stays on screen.
   */
  function ClearBody(r: Renderer, lineWidths: seq<nat>, cols: nat): (r': Renderer)
    requires cols > 0
    ensures r'.log == r.log + [ClearLastLines(r.height + TotalOverflow(lineWidths, cols))]
    ensures r'.height == 0 && r'.promptHeight == r.promptHeight
    ensures r'.theme == r.theme && r'.promptsResetHeight == r.promptsResetHeight
    ensures Balanced(r) && TotalOverflow(lineWidths, cols) == 0 ==>
      Balanced(r') && OnScreen(r'.log) == r.promptHeight
  {
    var n := r.height + TotalOverflow(lineWidths, cols);
    var r' := r.(log := r.log + [ClearLastLines(n)], height := 0);
    OnScreenSnoc(r.log, ClearLastLines(n));
    assert OnScreen(r'.log) == OnScreen(r.log) - n;
    r'
  }
}

=== FILE: select.dfy ===
/**
 * The key dispatch of `FuzzySelect::_interact_on`
 * (src/internal/select/select.rs): one loop iteration reads a key and,
 * depending on the mode, the filtered list and the pager, moves the
 * selection, edits the query, switches mode, or ends the interaction.
 */
module Select {
  import opened Options
  import opened Chars
  import opened Filter

  /** `InputMode`. */
  datatype Mode = Normal | Editing

  /** The decoded keys the loop distinguishes (`console::Key`); every other key is `OtherKey`. */
  datatype Key =
    | Escape
    | Enter
    | Backspace
    | Tab
    | BackTab
    | ArrowUp
    | ArrowDown
    | ArrowLeft
    | ArrowRight
    | Char(c: char)
    | OtherKey

  /** The loop's mutable state: the query, its cursor, the selected row and the mode. */
  datatype State = State(query: string, position: nat, sel: Option<nat>, mode: Mode)

  /** The cursor lies within the query (or just past its end). */
  predicate Valid(s: State)
  {
    s.position <= |s.query|
  }

  /**
   * The pager as this iteration sees it: whether paging is active and the
   * selection `previous_page()` and `next_page()` would return.
   */
  datatype Pager = Pager(active: bool, previousPage: nat, nextPage: nat)

  /**
   * The result of one iteration: keep looping, return `Ok(choice)`, or
   * index the filtered list out of bounds (a panic in the source).
   */
  datatype Outcome = Continue(state: State) | Exit(choice: Option<nat>) | IndexPanic

  // ---------------------------------------------------------------------
  // Cyclic navigation

  /**
   * `Up` is the `next_item!` macro (ArrowUp, BackTab, `k`), `Down` is
   * `prev_item!` (ArrowDown, Tab, `j`).
   */
  datatype Direction = Up | Down

  /**
   * One move of the selection in a list of `n` rows: `Up` decrements and
   * wraps from the first row to the last, `Down` increments and wraps from
   * the last row to the first; with no selection, `Up` selects the last row
   * and `Down` the first. A stale selection past the end is reduced modulo
   * `n` like any other.
   */
  function Move(dir: Direction, sel: Option<nat>, n: nat): (r: nat)
    requires n > 0
    ensures r < n
    ensures sel.None? ==> r == (if dir == Up then n - 1 else 0)
    ensures sel.Some? && sel.value < n && dir == Up ==> r == (if sel.value == 0 then n - 1 else sel.value - 1)
    ensures sel.Some? && sel.value < n && dir == Down ==> r == (if sel.value == n - 1 then 0 else sel.value + 1)
    ensures sel.Some? && dir == Up ==> r == (sel.value + n - 1) % n
    ensures sel.Some? && dir == Down ==> r == (sel.value + 1) % n
  {
    match (dir, sel)
    case (Up, None) => n - 1
    case (Up, Some(s)) =>
      (WrapFacts(s, n);
       ((s as int - 1 + n as int) % (n as int)) as nat)
    case (Down, None) => 0
    case (Down, Some(s)) =>
      (WrapFacts(s, n);
       (s + 1) % n)
  }

  /** The two wrap formulas on a row `s` of a list of `n` rows. */
  lemma WrapFacts(s: nat, n: nat)
    requires n > 0
    ensures s < n ==> (s as int - 1 + n as int) % (n as int) == (if s == 0 then n - 1 else s - 1)
    ensures s < n ==> (s + 1) % n == (if s == n - 1 then 0 else s + 1)
  {
    if s < n {
      ModPred(s + n, n);
      ModUnique(s + n, n, 1, s);
      ModSucc(s, n);
      ModUnique(s, n, 0, s);
    }
  }

  /** `k` consecutive moves in the same direction. */
  function MoveTimes(dir: Direction, sel: Option<nat>, n: nat, k: nat): Option<nat>
    requires n > 0
  {
    if k == 0 then sel else Some(Move(dir, MoveTimes(dir, sel, n, k - 1), n))
  }

  lemma MulMono(k: int, n: int)
    requires k >= 1 && n > 0
    ensures k * n >= n
  {
  }

  /** Euclidean division is unique: a quotient and an in-range remainder are `/` and `%`. */
  lemma ModUnique(a: int, n: int, q: int, m: int)
    requires n > 0 && 0 <= m < n && a == q * n + m
    ensures a % n == m && a / n == q
  {
    var q' := a / n;
    var m' := a % n;
    assert a == q' * n + m';
    if q' > q {
      MulMono(q' - q, n);
    } else if q' < q {
      MulMono(q - q', n);
    }
  }

  /** Decrementing with wrap-around is subtracting one modulo `n`. */
  lemma ModPred(a: int, n: int)
    requires n > 0
    ensures (a - 1) % n == (if a % n == 0 then n - 1 else a % n - 1)
  {
    var q := a / n;
    var m := a % n;
    if m == 0 {
      assert (q - 1) * n == q * n - n;
      ModUnique(a - 1, n, q - 1, n - 1);
    } else {
      ModUnique(a - 1, n, q, m - 1);
    }
  }

  /** Incrementing with wrap-around is adding one modulo `n`. */
  lemma ModSucc(a: int, n: int)
    requires n > 0
    ensures (a + 1) % n == (if a % n == n - 1 then 0 else a % n + 1)
  {
    var q := a / n;
    var m := a % n;
    if m == n - 1 {
      assert (q + 1) * n == q * n + n;
      ModUnique(a + 1, n, q + 1, 0);
    } else {
      ModUnique(a + 1, n, q, m + 1);
    }
  }

  /** `k` up-moves from row `s` land on row `(s - k) mod n`. */
  lemma {:induction false} MoveUpTimes(s: nat, n: nat, k: nat)
    requires s < n
    ensures MoveTimes(Up, Some(s), n, k) == Some(((s - k) % n) as nat)
    decreases k
  {
    if k == 0 {
      ModUnique(s, n, 0, s);
    } else {
      MoveUpTimes(s, n, k - 1);
      var m := ((s - (k - 1)) % n) as nat;
      assert MoveTimes(Up, Some(s), n, k) == Some(Move(Up, Some(m), n));
      ModPred(s - (k - 1), n);
      assert s - (k - 1) - 1 == s - k;
    }
  }

  /** `k` down-moves from row `s` land on row `(s + k) mod n`. */
  lemma {:induction false} MoveDownTimes(s: nat, n: nat, k: nat)
    requires s < n
    ensures MoveTimes(Down, Some(s), n, k) == Some((s + k) % n)
    decreases k
  {
    if k == 0 {
      ModUnique(s, n, 0, s);
    } else {
      MoveDownTimes(s, n, k - 1);
      var m := (s + (k - 1)) % n;
      assert MoveTimes(Down, Some(s), n, k) == Some(Move(Down, Some(m), n));
      ModSucc(s + (k - 1), n);
    }
  }

  /** The wrap-around is exact: `n` moves in one direction return to the starting row. */
  lemma MoveCycle(dir: Direction, s: nat, n: nat)
    requires s < n
    ensures MoveTimes(dir, Some(s), n, n) == Some(s)
  {
    if dir == Up {
      MoveUpTimes(s, n, n);
      ModUnique(s - n, n, -1, s);
    } else {
      MoveDownTimes(s, n, n);
      ModUnique(s + n, n, 1, s);
    }
  }

  /** An up-move and a down-move undo each other on any row of the list. */
  lemma MoveInverse(s: nat, n: nat)
    requires s < n
    ensures Move(Down, Some(Move(Up, Some(s), n)), n) == s
    ensures Move(Up, Some(Move(Down, Some(s), n)), n) == s
  {
  }

  // ---------------------------------------------------------------------
  // Query editing

  /** Typing `c`: it lands at the cursor, the cursor advances, the best match is selected. */
  function InsertChar(s: State, c: char): (r: State)
    requires Valid(s)
    ensures Valid(r)
    ensures r.query == InsertAt(s.query, s.position, c) && r.position == s.position + 1
    ensures r.sel == Some(0) && r.mode == s.mode
  {
    s.(query := InsertAt(s.query, s.position, c), position := s.position + 1, sel := Some(0))
  }

  /** Backspace: the character before the cursor goes and the cursor steps back; the selection stays. */
  function DeleteBack(s: State): (r: State)
    requires Valid(s) && s.position > 0
    ensures Valid(r)
    ensures r.position == s.position - 1 && r.query == RemoveAt(s.query, s.position - 1)
    ensures r.sel == s.sel && r.mode == s.mode
  {
    s.(position := s.position - 1, query := RemoveAt(s.query, s.position - 1))
  }

  /** Typing a character and then Backspace restores the query and the cursor. */
  lemma DeleteBackUndoesInsert(s: State, c: char)
    requires Valid(s)
    ensures var t := DeleteBack(InsertChar(s, c));
      t.query == s.query && t.position == s.position && t.mode == s.mode
  {
    RemoveAfterInsert(s.query, s.position, c);
  }

  // ---------------------------------------------------------------------
  // One iteration

  /** Keys that move the selection up: ArrowUp and BackTab always, `k` only in Normal mode. */
  predicate IsUpKey(k: Key, m: Mode)
  {
    k == ArrowUp || k == BackTab || (k == Char('k') && m == Normal)
  }

  /** Keys that move the selection down: ArrowDown and Tab always, `j` only in Normal mode. */
  predicate IsDownKey(k: Key, m: Mode)
  {
    k == ArrowDown || k == Tab || (k == Char('j') && m == Normal)
  }

  /** Keys that turn to the previous page: ArrowLeft always, `h` only in Normal mode. */
  predicate IsPreviousPageKey(k: Key, m: Mode)
  {
    k == ArrowLeft || (k == Char('h') && m == Normal)
  }

  /** Keys that turn to the next page: ArrowRight always, `l` only in Normal mode. */
  predicate IsNextPageKey(k: Key, m: Mode)
  {
    k == ArrowRight || (k == Char('l') && m == Normal)
  }

  /**
   * The dispatch on the key read and the selection in one iteration, arm
   * by arm in the source's order. `filtered` is this frame's filtered
   * list, `items` the full item list. The interaction only ends from Normal mode: Escape
   * cancels, Enter on a selected row commits and returns where the row's
   * title first occurs among the items.
   */
  function Step(s: State, key: Key, items: seq<Item>, filtered: seq<Item>, pager: Pager): (r: Outcome)
    requires Valid(s)
    ensures r.Continue? ==> Valid(r.state)
    ensures r.Exit? <==>
      (s.mode == Normal && (key == Escape || (key == Enter && s.sel.Some? && s.sel.value < |filtered|)))
    ensures r.IndexPanic? <==>
      (s.mode == Normal && key == Enter && s.sel.Some? && 0 < |filtered| <= s.sel.value)
    ensures r.Exit? && r.choice.Some? ==>
      key == Enter && r.choice.value < |items| && items[r.choice.value].title == filtered[s.sel.value].title
    ensures r.Exit? && r.choice.None? && key == Enter ==>
      forall j :: 0 <= j < |items| ==> items[j].title != filtered[s.sel.value].title
    ensures r.Continue? && r.state.query != s.query ==> s.mode == Editing && (key == Backspace || key.Char?)
    ensures r.Continue? && r.state.mode != s.mode ==>
      ((s.mode == Normal && key == Char('i')) || (s.mode == Editing && (key == Escape || key == Enter)))
    ensures (IsUpKey(key, s.mode) || IsDownKey(key, s.mode)) && |filtered| > 0 ==>
      (&& r.Continue? && r.state.sel.Some? && r.state.sel.value < |filtered|
       && r.state.query == s.query && r.state.position == s.position && r.state.mode == s.mode)
  {
    var n := |filtered|;
    if key == Escape then
      match s.mode
      case Normal => Exit(None)
      case Editing => Continue(s.(mode := Normal))
    else if key == Char('i') && s.mode == Normal then
      Continue(s.(mode := Editing))
    else if IsUpKey(key, s.mode) && n > 0 then
      Continue(s.(sel := Some(Move(Up, s.sel, n))))
    else if IsDownKey(key, s.mode) && n > 0 then
      Continue(s.(sel := Some(Move(Down, s.sel, n))))
    else if IsPreviousPageKey(key, s.mode) && pager.active then
      Continue(s.(sel := Some(pager.previousPage)))
    else if IsNextPageKey(key, s.mode) && pager.active then
      Continue(s.(sel := Some(pager.nextPage)))
    else if key == Enter && s.sel.Some? then
      match s.mode
      case Editing => Continue(s.(mode := Normal))
      case Normal =>
        if n == 0 then Continue(s)
        else if s.sel.value < n then Exit(FirstIndexOf(items, filtered[s.sel.value].title))
        else IndexPanic
    else if key == Backspace && s.mode == Editing && s.position > 0 then
      Continue(DeleteBack(s))
    else if key.Char? && s.mode == Editing && !IsAsciiControl(key.c) then
      Continue(InsertChar(s, key.c))
    else
      Continue(s)
  }

  /** The argument of `paging.update` after the key: the selection, or row 0 without one. */
  function PagingAnchor(s: State): (row: nat)
    ensures s.sel.Some? ==> row == s.sel.value
    ensures s.sel.None? ==> row == 0
  {
    s.sel.UnwrapOr(0)
  }

  // ---------------------------------------------------------------------
  // Properties of one iteration

  /** ArrowUp, BackTab and Normal-mode `k` on a non-empty list move up and change nothing else. */
  lemma StepUp(s: State, key: Key, items: seq<Item>, filtered: seq<Item>, pager: Pager)
    requires Valid(s) && IsUpKey(key, s.mode) && |filtered| > 0
    ensures Step(s, key, items, filtered, pager) == Continue(s.(sel := Some(Move(Up, s.sel, |filtered|))))
  {
  }

  /** ArrowDown, Tab and Normal-mode `j` on a non-empty list move down and change nothing else. */
  lemma StepDown(s: State, key: Key, items: seq<Item>, filtered: seq<Item>, pager: Pager)
    requires Valid(s) && IsDownKey(key, s.mode) && |filtered| > 0
    ensures Step(s, key, items, filtered, pager) == Continue(s.(sel := Some(Move(Down, s.sel, |filtered|))))
  {
  }

  /**
   * In Editing mode every printable character is typed into the query,
   * including `i`, `k`, `j`, `h` and `l`, which are commands only in Normal
   * mode; the rest of the query is unchanged around it.
   */
  lemma StepTypes(s: State, c: char, items: seq<Item>, filtered: seq<Item>, pager: Pager)
    requires Valid(s) && s.mode == Editing && !IsAsciiControl(c)
    ensures var r := Step(s, Char(c), items, filtered, pager);
      && r.Continue?
      && r.state.query[..s.position] == s.query[..s.position]
      && r.state.query[s.position] == c
      && r.state.query[s.position + 1..] == s.query[s.position..]
      && r.state.position == s.position + 1
      && r.state.sel == Some(0)
      && r.state.mode == Editing
  {
    var q := InsertAt(s.query, s.position, c);
    assert q[s.position + 1..] == s.query[s.position..];
  }

  /**
   * Backspace in Editing mode removes the character before the cursor;
   * at the start of the query, or in Normal mode, it changes nothing.
   */
  lemma StepBackspace(s: State, items: seq<Item>, filtered: seq<Item>, pager: Pager)
    requires Valid(s)
    ensures var r := Step(s, Backspace, items, filtered, pager);
      && r.Continue?
      && (s.mode == Editing && s.position > 0 ==>
            && r.state.query == s.query[..s.position - 1] + s.query[s.position..]
            && r.state.position == s.position - 1
            && r.state.sel == s.sel && r.state.mode == s.mode)
      && (s.mode == Normal || s.position == 0 ==> r.state == s)
  {
    if s.mode == Editing && s.position > 0 {
      var q := RemoveAt(s.query, s.position - 1);
      assert q == s.query[..s.position - 1] + s.query[s.position..];
    }
  }

  /**
   * The mode transitions: `i` enters Editing from Normal, Escape leaves
   * Editing for Normal and cancels from Normal, and Enter on a selected row
   * in Editing returns to Normal without leaving the loop.
   */
  lemma StepModes(s: State, items: seq<Item>, filtered: seq<Item>, pager: Pager)
    requires Valid(s)
    ensures s.mode == Normal ==> Step(s, Char('i'), items, filtered, pager) == Continue(s.(mode := Editing))
    ensures s.mode == Editing ==> Step(s, Escape, items, filtered, pager) == Continue(s.(mode := Normal))
    ensures s.mode == Normal ==> Step(s, Escape, items, filtered, pager) == Exit(None)
    ensures s.mode == Editing && s.sel.Some? ==> Step(s, Enter, items, filtered, pager) == Continue(s.(mode := Normal))
    ensures s.mode == Editing && s.sel.None? ==> Step(s, Enter, items, filtered, pager) == Continue(s)
  {
  }

  /** The paging keys only act while paging is active, and then select what the pager returns. */
  lemma StepPages(s: State, key: Key, items: seq<Item>, filtered: seq<Item>, pager: Pager)
    requires Valid(s) && (IsPreviousPageKey(key, s.mode) || IsNextPageKey(key, s.mode))
    ensures pager.active ==>
      (Step(s, key, items, filtered, pager) ==
       Continue(s.(sel := Some(if IsPreviousPageKey(key, s.mode) then pager.previousPage else pager.nextPage))))
    ensures !pager.active ==> Step(s, key, items, filtered, pager) == Continue(s)
  {
  }

  /**
   * Committing a row of a list built from the items always finds it: the
   * result names an item with the committed row's title, the first such one.
   */
  lemma CommitFindsRow(s: State, items: seq<Item>, filtered: seq<Item>, pager: Pager)
    requires Valid(s) && s.mode == Normal && s.sel.Some? && s.sel.value < |filtered|
    requires forall i :: 0 <= i < |filtered| ==> filtered[i] in items
    ensures var r := Step(s, Enter, items, filtered, pager);
      && r.Exit? && r.choice.Some?
      && items[r.choice.value].title == filtered[s.sel.value].title
      && forall j :: 0 <= j < r.choice.value ==> items[j].title != filtered[s.sel.value].title
  {
    assert filtered[s.sel.value] in items;
  }
}

=== FILE: theme.dfy ===
/**
 * The two built-in themes of `src/internal/select/theme.rs`: the plain
 * `SimpleTheme`, which uses the default method bodies of the `Theme` trait,
 * and `ColorfulTheme`, which overrides every formatter. The trait becomes a
 * flat two-case datatype and each formatter dispatches on it. A formatter
 * returns the pieces it writes into the buffer.
 */
module Theme {
  import opened Options
  import opened Chars
  import opened Doc

  /** The `ColorfulTheme` fields the formatters read; styles are the `Role`s. */
  datatype ColorfulTheme = ColorfulTheme(
    promptPrefix: string,
    promptSuffix: string,
    successPrefix: string,
    successSuffix: string,
    errorPrefix: string,
    activeItemPrefix: string,
    inactiveItemPrefix: string,
    inlineSelections: bool)

  datatype Theme = SimpleTheme | Colorful(colors: ColorfulTheme)

  /**
   * `ColorfulTheme::default()`, the theme the program draws with: "?", "›",
   * "✔", "·", "✘", "❯", " ", inline selections on. Both item markers are
   * one character wide and neither breaks the line.
   */
  function DefaultColorfulTheme(): (c: ColorfulTheme)
    ensures |c.activeItemPrefix| == 1 && |c.inactiveItemPrefix| == 1
    ensures !('\n' in c.activeItemPrefix) && !('\n' in c.inactiveItemPrefix)
    ensures c.activeItemPrefix != c.inactiveItemPrefix
    ensures c.inlineSelections
  {
    ColorfulTheme(
      promptPrefix := "?",
      promptSuffix := "\U{203A}",
      successPrefix := "\U{2714}",
      successSuffix := "\U{00B7}",
      errorPrefix := "\U{2718}",
      activeItemPrefix := "\U{276F}",
      inactiveItemPrefix := " ",
      inlineSelections := true)
  }

  // ---------------------------------------------------------------------
  // Shared pieces

  /**
   * One piece per character of `text`; a character whose index is in
   * `matched` is wrapped in `onMatch`, every other one in `onOther`.
   */
  function HighlightChars(text: string, matched: seq<nat>, onMatch: seq<Role>, onOther: seq<Role>): (r: seq<Piece>)
    ensures |r| == |text|
    ensures forall i :: 0 <= i < |r| ==> r[i] == Wrap(if i in matched then onMatch else onOther, Raw([text[i]]))
    ensures Text(r) == text
  {
    var r := seq(|text|, i requires 0 <= i < |text| =>
      Wrap(if i in matched then onMatch else onOther, Raw([text[i]])));
    CharPiecesText(r, text);
    r
  }

  /** Pieces that each show one character of `text`, in order, show `text`. */
  lemma {:induction false} CharPiecesText(r: seq<Piece>, text: string)
    requires |r| == |text|
    requires forall i :: 0 <= i < |r| ==> Flatten(r[i]) == [text[i]]
    ensures Text(r) == text
    decreases |r|
  {
    if r != [] {
      var n := |r| - 1;
      CharPiecesText(r[..n], text[..n]);
      assert text == text[..n] + [text[n]];
    }
  }

  /** The `"<prefix> <prompt> "` lead the colorful formatters write before a non-empty prompt. */
  function ColorfulLead(prefixRole: Role, prefix: string, prompt: string): seq<Piece>
  {
    if prompt == [] then []
    else [Styled(prefixRole, Raw(prefix)), Raw(" "), Styled(PromptStyle, Raw(prompt)), Raw(" ")]
  }

  /** The colorful lead shows nothing for an empty prompt, and `"<prefix> <prompt> "` otherwise. */
  lemma ColorfulLeadText(prefixRole: Role, prefix: string, prompt: string)
    ensures prompt == [] ==> Text(ColorfulLead(prefixRole, prefix, prompt)) == []
    ensures prompt != [] ==> Text(ColorfulLead(prefixRole, prefix, prompt)) == prefix + " " + prompt + " "
  {
    TextOf4(Styled(prefixRole, Raw(prefix)), Raw(" "), Styled(PromptStyle, Raw(prompt)), Raw(" "));
  }

  // ---------------------------------------------------------------------
  // SimpleTheme: the default method bodies of the trait

  function SimpleFormatPrompt(prompt: string): seq<Piece>
  {
    [Raw(prompt + ":")]
  }

  lemma SimpleFormatPromptText(prompt: string)
    ensures Text(SimpleFormatPrompt(prompt)) == prompt + ":"
  {
    TextSingle(Raw(prompt + ":"));
  }

  function SimpleFormatError(err: string): seq<Piece>
  {
    [Raw("error: " + err)]
  }

  lemma SimpleFormatErrorText(err: string)
    ensures Text(SimpleFormatError(err)) == "error: " + err
  {
    TextSingle(Raw("error: " + err));
  }

  function SimpleFormatInputPrompt(prompt: string, default: Option<string>): seq<Piece>
  {
    match default
    case Some(d) => if prompt == [] then [Raw("[" + d + "]: ")] else [Raw(prompt + " [" + d + "]: ")]
    case None => [Raw(prompt + ": ")]
  }

  /**
   * `[default]: ` when the prompt is empty, `prompt [default]: ` with a
   * default, `prompt: ` without one.
   */
  lemma SimpleFormatInputPromptText(prompt: string, default: Option<string>)
    ensures default.Some? && prompt == [] ==> Text(SimpleFormatInputPrompt(prompt, default)) == "[" + default.value + "]: "
    ensures default.Some? && prompt != [] ==> Text(SimpleFormatInputPrompt(prompt, default)) == prompt + " [" + default.value + "]: "
    ensures default.None? ==> Text(SimpleFormatInputPrompt(prompt, default)) == prompt + ": "
  {
    var r := SimpleFormatInputPrompt(prompt, default);
    TextSingle(r[0]);
  }

  function SimpleFormatInputPromptSelection(prompt: string, sel: string): seq<Piece>
  {
    [Raw(prompt + ": " + sel)]
  }

  lemma SimpleFormatInputPromptSelectionText(prompt: string, sel: string)
    ensures Text(SimpleFormatInputPromptSelection(prompt, sel)) == prompt + ": " + sel
  {
    TextSingle(Raw(prompt + ": " + sel));
  }

  /** The item text after the simple marker: matched characters in bold when highlighting. */
  function SimpleItemBody(text: string, highlight: bool, matched: Option<seq<nat>>): seq<Piece>
  {
    if highlight && matched.Some? then HighlightChars(text, matched.value, [Bold], []) else [Raw(text)]
  }

  /** The `"> "` or two-space marker and then the item text. */
  function SimpleFormatFuzzySelectPromptItem(text: string, active: bool, highlight: bool, matched: Option<seq<nat>>): seq<Piece>
  {
    [Raw((if active then ">" else " ") + " ")] + SimpleItemBody(text, highlight, matched)
  }

  /** A simple item line shows the marker, a space and the text, highlighted or not. */
  lemma SimpleItemText(text: string, active: bool, highlight: bool, matched: Option<seq<nat>>)
    ensures Text(SimpleFormatFuzzySelectPromptItem(text, active, highlight, matched)) == (if active then ">" else " ") + " " + text
  {
    var marker := Raw((if active then ">" else " ") + " ");
    var body := SimpleItemBody(text, highlight, matched);
    TextSingle(Raw(text));
    assert Text(body) == text;
    TextAppend([marker], body);
    TextSingle(marker);
  }

  /** With highlighting, each character of the item follows the marker in its own piece, bold when matched. */
  lemma SimpleItemHighlights(text: string, active: bool, matched: seq<nat>)
    ensures var r := SimpleFormatFuzzySelectPromptItem(text, active, true, Some(matched));
      && |r| == 1 + |text|
      && forall i :: 0 <= i < |text| ==> r[1 + i] == (if i in matched then Styled(Bold, Raw([text[i]])) else Raw([text[i]]))
  {
    forall i | 0 <= i < |text| {
      SimpleItemCharAt(text, active, matched, i);
    }
  }

  lemma SimpleItemCharAt(text: string, active: bool, matched: seq<nat>, i: nat)
    requires i < |text|
    ensures SimpleFormatFuzzySelectPromptItem(text, active, true, Some(matched))[1 + i]
         == if i in matched then Styled(Bold, Raw([text[i]])) else Raw([text[i]])
  {
    var marker := [Raw((if active then ">" else " ") + " ")];
    var body := HighlightChars(text, matched, [Bold], []);
    assert SimpleItemBody(text, true, Some(matched)) == body;
    assert (marker + body)[1 + i] == body[i];
    if i in matched {
      WrapOne(Bold, Raw([text[i]]));
    } else {
      WrapNone(Raw([text[i]]));
    }
  }

  /** The text a prompt line starts with before the query: `"prompt "`, or nothing for an empty prompt. */
  function SimplePromptLead(prompt: string): string
  {
    if prompt == [] then [] else prompt + " "
  }

  /** The query with a `|` cursor inserted at `cursor`, or appended when the cursor is at or past the end. */
  function SimpleFormatFuzzySelectPrompt(prompt: string, term: string, cursor: nat): seq<Piece>
  {
    var lead := if prompt == [] then [] else [Raw(prompt + " ")];
    var line :=
      if cursor < |term| then term[0..cursor] + "|" + term[cursor..|term|]
      else term + "|";
    lead + [Raw(line)]
  }

  /** The plain query line shows the lead and the query with `|` inserted at the cursor, clamped to the end. */
  lemma SimpleFuzzyPromptText(prompt: string, term: string, cursor: nat)
    ensures Text(SimpleFormatFuzzySelectPrompt(prompt, term, cursor))
         == SimplePromptLead(prompt) + InsertAt(term, if cursor < |term| then cursor else |term|, '|')
  {
    var lead := if prompt == [] then [] else [Raw(prompt + " ")];
    var line :=
      if cursor < |term| then term[0..cursor] + "|" + term[cursor..|term|]
      else term + "|";
    CursorLineIsInsert(term, cursor, line);
    TextAppend(lead, [Raw(line)]);
    TextSingle(Raw(line));
    TextSingle(Raw(prompt + " "));
  }

  lemma CursorLineIsInsert(term: string, cursor: nat, line: string)
    requires line == if cursor < |term| then term[0..cursor] + "|" + term[cursor..|term|] else term + "|"
    ensures line == InsertAt(term, if cursor < |term| then cursor else |term|, '|')
  {
    if cursor < |term| {
      assert term[cursor..] == term[cursor..|term|];
    } else {
      assert term[..|term|] == term;
    }
  }

  // ---------------------------------------------------------------------
  // ColorfulTheme overrides

  function ColorfulFormatPrompt(c: ColorfulTheme, prompt: string): seq<Piece>
  {
    ColorfulLead(PromptPrefix, c.promptPrefix, prompt) + [Styled(PromptSuffix, Raw(c.promptSuffix))]
  }

  lemma ColorfulFormatPromptText(c: ColorfulTheme, prompt: string)
    ensures Text(ColorfulFormatPrompt(c, prompt)) == Text(ColorfulLead(PromptPrefix, c.promptPrefix, prompt)) + c.promptSuffix
  {
    TextAppend(ColorfulLead(PromptPrefix, c.promptPrefix, prompt), [Styled(PromptSuffix, Raw(c.promptSuffix))]);
    TextSingle(Styled(PromptSuffix, Raw(c.promptSuffix)));
  }

  function ColorfulFormatError(c: ColorfulTheme, err: string): seq<Piece>
  {
    [Styled(ErrorPrefix, Raw(c.errorPrefix)), Raw(" "), Styled(ErrorStyle, Raw(err))]
  }

  lemma ColorfulFormatErrorText(c: ColorfulTheme, err: string)
    ensures Text(ColorfulFormatError(c, err)) == c.errorPrefix + " " + err
  {
    TextOf3(Styled(ErrorPrefix, Raw(c.errorPrefix)), Raw(" "), Styled(ErrorStyle, Raw(err)));
  }

  /** What follows the lead of the colorful input prompt. */
  function ColorfulInputTail(c: ColorfulTheme, default: Option<string>): seq<Piece>
  {
    match default
    case Some(d) => [Styled(HintStyle, Raw("(" + d + ")")), Raw(" "), Styled(PromptSuffix, Raw(c.promptSuffix)), Raw(" ")]
    case None => [Styled(PromptSuffix, Raw(c.promptSuffix)), Raw(" ")]
  }

  function ColorfulFormatInputPrompt(c: ColorfulTheme, prompt: string, default: Option<string>): seq<Piece>
  {
    ColorfulLead(PromptPrefix, c.promptPrefix, prompt) + ColorfulInputTail(c, default)
  }

  /** The lead, then `"(default) › "` with a default or `"› "` without one. */
  lemma ColorfulFormatInputPromptText(c: ColorfulTheme, prompt: string, default: Option<string>)
    ensures default.Some? ==>
      Text(ColorfulFormatInputPrompt(c, prompt, default))
      == Text(ColorfulLead(PromptPrefix, c.promptPrefix, prompt)) + "(" + default.value + ") " + c.promptSuffix + " "
    ensures default.None? ==>
      Text(ColorfulFormatInputPrompt(c, prompt, default))
      == Text(ColorfulLead(PromptPrefix, c.promptPrefix, prompt)) + c.promptSuffix + " "
  {
    TextAppend(ColorfulLead(PromptPrefix, c.promptPrefix, prompt), ColorfulInputTail(c, default));
    match default
    case Some(d) =>
      TextOf4(Styled(HintStyle, Raw("(" + d + ")")), Raw(" "), Styled(PromptSuffix, Raw(c.promptSuffix)), Raw(" "));
    case None =>
      TextOf2(Styled(PromptSuffix, Raw(c.promptSuffix)), Raw(" "));
  }

  function ColorfulFormatInputPromptSelection(c: ColorfulTheme, prompt: string, sel: string): seq<Piece>
  {
    ColorfulLead(SuccessPrefix, c.successPrefix, prompt)
      + [Styled(SuccessSuffix, Raw(c.successSuffix)), Raw(" "), Styled(ValuesStyle, Raw(sel))]
  }

  lemma ColorfulFormatInputPromptSelectionText(c: ColorfulTheme, prompt: string, sel: string)
    ensures Text(ColorfulFormatInputPromptSelection(c, prompt, sel))
         == Text(ColorfulLead(SuccessPrefix, c.successPrefix, prompt)) + c.successSuffix + " " + sel
  {
    var tail := [Styled(SuccessSuffix, Raw(c.successSuffix)), Raw(" "), Styled(ValuesStyle, Raw(sel))];
    TextOf3(tail[0], tail[1], tail[2]);
    TextAppend(ColorfulLead(SuccessPrefix, c.successPrefix, prompt), tail);
  }

  /**
   * The item text after the colorful prefix: with highlighting every matched
   * character carries the highlight style and, on the active row, every
   * character also carries the active-item style; without it the text is
   * written unstyled, even on the active row.
   */
  function ColorfulItemBody(text: string, active: bool, highlight: bool, matched: Option<seq<nat>>): seq<Piece>
  {
    if highlight && matched.Some? then
      if active then HighlightChars(text, matched.value, [ActiveItemStyle, FuzzyMatchHighlightStyle], [ActiveItemStyle])
      else HighlightChars(text, matched.value, [FuzzyMatchHighlightStyle], [])
    else [Raw(text)]
  }

  /** The prefix of an item row: the active or the inactive one. */
  function ColorfulItemPrefix(c: ColorfulTheme, active: bool): Piece
  {
    if active then Styled(ActiveItemPrefix, Raw(c.activeItemPrefix))
    else Styled(InactiveItemPrefix, Raw(c.inactiveItemPrefix))
  }

  /** The active or inactive prefix, a space, then the item text. */
  function ColorfulFormatFuzzySelectPromptItem(c: ColorfulTheme, text: string, active: bool, highlight: bool, matched: Option<seq<nat>>): seq<Piece>
  {
    [ColorfulItemPrefix(c, active), Raw(" ")] + ColorfulItemBody(text, active, highlight, matched)
  }

  /** A colorful item line shows the prefix, a space and the text, highlighted or not. */
  lemma ColorfulItemText(c: ColorfulTheme, text: string, active: bool, highlight: bool, matched: Option<seq<nat>>)
    ensures Text(ColorfulFormatFuzzySelectPromptItem(c, text, active, highlight, matched))
         == (if active then c.activeItemPrefix else c.inactiveItemPrefix) + " " + text
  {
    var body := ColorfulItemBody(text, active, highlight, matched);
    TextSingle(Raw(text));
    assert Text(body) == text;
    TextOf2(ColorfulItemPrefix(c, active), Raw(" "));
    TextAppend([ColorfulItemPrefix(c, active), Raw(" ")], body);
  }

  /**
   * With highlighting, each character of the item follows the prefix and
   * its space in its own piece. A matched one carries the highlight style,
   * inside the active-item style on the active row; an unmatched one carries
   * only the active-item style on the active row and no style elsewhere.
   */
  lemma ColorfulItemHighlights(c: ColorfulTheme, text: string, active: bool, matched: seq<nat>)
    ensures var r := ColorfulFormatFuzzySelectPromptItem(c, text, active, true, Some(matched));
      && |r| == 2 + |text|
      && (forall i :: 0 <= i < |text| && i in matched ==>
           r[2 + i] == (if active then Styled(ActiveItemStyle, Styled(FuzzyMatchHighlightStyle, Raw([text[i]])))
                        else Styled(FuzzyMatchHighlightStyle, Raw([text[i]]))))
      && (forall i :: 0 <= i < |text| && i !in matched ==>
           r[2 + i] == (if active then Styled(ActiveItemStyle, Raw([text[i]])) else Raw([text[i]])))
  {
    forall i | 0 <= i < |text| {
      ColorfulItemCharAt(c, text, active, matched, i);
    }
  }

  lemma ColorfulItemCharAt(c: ColorfulTheme, text: string, active: bool, matched: seq<nat>, i: nat)
    requires i < |text|
    ensures ColorfulFormatFuzzySelectPromptItem(c, text, active, true, Some(matched))[2 + i]
         == if i in matched then
              (if active then Styled(ActiveItemStyle, Styled(FuzzyMatchHighlightStyle, Raw([text[i]])))
               else Styled(FuzzyMatchHighlightStyle, Raw([text[i]])))
            else if active then Styled(ActiveItemStyle, Raw([text[i]])) else Raw([text[i]])
  {
    var lead := [ColorfulItemPrefix(c, active), Raw(" ")];
    var onMatch := if active then [ActiveItemStyle, FuzzyMatchHighlightStyle] else [FuzzyMatchHighlightStyle];
    var body := HighlightChars(text, matched, onMatch, if active then [ActiveItemStyle] else []);
    assert ColorfulItemBody(text, active, true, Some(matched)) == body;
    assert (lead + body)[2 + i] == body[i];
    if i in matched {
      if active {
        WrapTwo(ActiveItemStyle, FuzzyMatchHighlightStyle, Raw([text[i]]));
      } else {
        WrapOne(FuzzyMatchHighlightStyle, Raw([text[i]]));
      }
    } else if active {
      WrapOne(ActiveItemStyle, Raw([text[i]]));
    } else {
      WrapNone(Raw([text[i]]));
    }
  }


  /** The query part of the colorful prompt line: the cursor is a styled piece over its character, or a styled space. */
  function ColorfulQueryPieces(c: ColorfulTheme, term: string, cursor: nat): seq<Piece>
  {
    if cursor < |term| then
      [Styled(PromptSuffix, Raw(c.promptSuffix)), Raw(" "), Raw(term[0..cursor]),
       Styled(FuzzyCursorStyle, Raw([term[cursor]])), Raw(term[cursor + 1..|term|])]
    else
      [Styled(PromptSuffix, Raw(c.promptSuffix)), Raw(" "), Raw(term), Styled(FuzzyCursorStyle, Raw(" "))]
  }

  function ColorfulFormatFuzzySelectPrompt(c: ColorfulTheme, prompt: string, term: string, cursor: nat): seq<Piece>
  {
    ColorfulLead(PromptPrefix, c.promptPrefix, prompt) + ColorfulQueryPieces(c, term, cursor)
  }

  /**
   * The lead, the prompt suffix and a space, then the query. A cursor inside
   * the query is drawn over the character under it, so the visible text is
   * still the query; a cursor at the end is a styled space after it.
   */
  lemma ColorfulFuzzyPromptShape(c: ColorfulTheme, prompt: string, term: string, cursor: nat)
    ensures var r := ColorfulFormatFuzzySelectPrompt(c, prompt, term, cursor);
      var lead := ColorfulLead(PromptPrefix, c.promptPrefix, prompt);
      && Text(r) == Text(lead) + c.promptSuffix + " " + (if cursor < |term| then term else term + " ")
      && |r| == |lead| + (if cursor < |term| then 5 else 4)
      && r[|lead| + 3] == Styled(FuzzyCursorStyle, Raw(if cursor < |term| then [term[cursor]] else " "))
  {
    var lead := ColorfulLead(PromptPrefix, c.promptPrefix, prompt);
    var tail := ColorfulQueryPieces(c, term, cursor);
    ColorfulQueryText(c, term, cursor);
    TextAppend(lead, tail);
    assert (lead + tail)[|lead| + 3] == tail[3];
  }

  /** The query pieces show the suffix, a space and the query, plus the cursor's space when it is at the end. */
  lemma ColorfulQueryText(c: ColorfulTheme, term: string, cursor: nat)
    ensures Text(ColorfulQueryPieces(c, term, cursor)) == c.promptSuffix + " " + (if cursor < |term| then term else term + " ")
  {
    var tail := ColorfulQueryPieces(c, term, cursor);
    if cursor < |term| {
      TextOf5(tail[0], tail[1], tail[2], tail[3], tail[4]);
      assert term == term[0..cursor] + [term[cursor]] + term[cursor + 1..|term|];
    } else {
      TextOf4(tail[0], tail[1], tail[2], tail[3]);
    }
  }

  // ---------------------------------------------------------------------
  // Dispatch on the theme

  function FormatPrompt(t: Theme, prompt: string): seq<Piece>
  {
    match t
    case SimpleTheme => SimpleFormatPrompt(prompt)
    case Colorful(c) => ColorfulFormatPrompt(c, prompt)
  }

  function FormatError(t: Theme, err: string): seq<Piece>
  {
    match t
    case SimpleTheme => SimpleFormatError(err)
    case Colorful(c) => ColorfulFormatError(c, err)
  }

  function FormatInputPrompt(t: Theme, prompt: string, default: Option<string>): seq<Piece>
  {
    match t
    case SimpleTheme => SimpleFormatInputPrompt(prompt, default)
    case Colorful(c) => ColorfulFormatInputPrompt(c, prompt, default)
  }

  function FormatInputPromptSelection(t: Theme, prompt: string, sel: string): seq<Piece>
  {
    match t
    case SimpleTheme => SimpleFormatInputPromptSelection(prompt, sel)
    case Colorful(c) => ColorfulFormatInputPromptSelection(c, prompt, sel)
  }

  function FormatFuzzySelectPromptItem(t: Theme, text: string, active: bool, highlight: bool, matched: Option<seq<nat>>): seq<Piece>
  {
    match t
    case SimpleTheme => SimpleFormatFuzzySelectPromptItem(text, active, highlight, matched)
    case Colorful(c) => ColorfulFormatFuzzySelectPromptItem(c, text, active, highlight, matched)
  }

  function FormatFuzzySelectPrompt(t: Theme, prompt: string, term: string, cursor: nat): seq<Piece>
  {
    match t
    case SimpleTheme => SimpleFormatFuzzySelectPrompt(prompt, term, cursor)
    case Colorful(c) => ColorfulFormatFuzzySelectPrompt(c, prompt, term, cursor)
  }

  // ---------------------------------------------------------------------
  // Properties

  /**
   * Plain prompt line: the `|` sits right after the lead at the cursor
   * offset (clamped to the query's end), and taking it out gives back the
   * query.
   */
  lemma SimplePromptRecoversQuery(prompt: string, term: string, cursor: nat)
    ensures var shown := Text(SimpleFormatFuzzySelectPrompt(prompt, term, cursor));
      var lead := SimplePromptLead(prompt);
      var c := if cursor < |term| then cursor else |term|;
      && |shown| == |lead| + |term| + 1
      && shown[..|lead|] == lead
      && shown[|lead| + c] == '|'
      && RemoveAt(shown[|lead|..], c) == term
  {
    var lead := SimplePromptLead(prompt);
    var c := if cursor < |term| then cursor else |term|;
    SimpleFuzzyPromptText(prompt, term, cursor);
    var shown := Text(SimpleFormatFuzzySelectPrompt(prompt, term, cursor));
    assert shown[|lead|..] == InsertAt(term, c, '|');
    RemoveAfterInsert(term, c, '|');
  }

  /** The marker a theme writes in front of an item (`>`/space or the colorful prefixes). */
  function ItemMarker(t: Theme, active: bool): string
  {
    match t
    case SimpleTheme => if active then ">" else " "
    case Colorful(c) => if active then c.activeItemPrefix else c.inactiveItemPrefix
  }

  /**
   * Both themes keep every character of the item text: the visible item
   * line is the theme's marker, a space, and the text unchanged, with or
   * without highlighting.
   */
  lemma ItemLineKeepsText(t: Theme, text: string, active: bool, highlight: bool, matched: Option<seq<nat>>)
    ensures Text(FormatFuzzySelectPromptItem(t, text, active, highlight, matched)) == ItemMarker(t, active) + " " + text
  {
    match t
    case SimpleTheme => SimpleItemText(text, active, highlight, matched);
    case Colorful(c) => ColorfulItemText(c, text, active, highlight, matched);
  }

  /**
   * Colorful prompt line: the text after the prompt suffix and its space is
   * the query itself when the cursor is inside it, and the query followed
   * by the cursor's space otherwise.
   */
  lemma ColorfulPromptShowsQuery(c: ColorfulTheme, prompt: string, term: string, cursor: nat)
    ensures var shown := Text(ColorfulFormatFuzzySelectPrompt(c, prompt, term, cursor));
      var start := |Text(ColorfulLead(PromptPrefix, c.promptPrefix, prompt))| + |c.promptSuffix| + 1;
      && start <= |shown|
      && (cursor < |term| ==> shown[start..] == term)
      && (cursor >= |term| ==> shown[start..] == term + " ")
  {
    ColorfulFuzzyPromptShape(c, prompt, term, cursor);
  }
}
